=== FILE: README.md ===
# Simple web calculator: evaluator, single-operation endpoint and display

This project models, in Dafny, the logic of a small web calculator:

- the multi-operator expression evaluator `evaluateSimpleExpression`. It has three stages:
  - a tokenizer;
  - pass 1, which folds `*` and `/` into the operand on their left;
  - pass 2, which adds and subtracts what is left.
- the single-operation `calculate` endpoint. It accepts exactly one operator, strictly inside the trimmed text, and applies it to the numbers on either side.
- the browser script's display editing: `appendValue`, `clearDisplay` and `deleteLast`.

Numbers are exact `real`s. Strings are `seq<char>`. Each exception or error response is a constructor of an error datatype, and its text is kept by a `Message` function.

Modules, in dependency order:

- `Wrappers` holds `Option` and `Result`.
- `Text` holds the character classes, Java's `String.trim`, and the digit/dot literals with their exact values.
- `Syntax` holds tokens, pass-1 entries, errors, and the grammar number, operator, …, number (`WellFormed`).
- `Tokenizer`, `Multiplicative` (pass 1) and `Additive` (pass 2) are the three stages.
- `Evaluator` chains the stages. `Examples` holds worked evaluations.
- `SingleOperation` is the main-tree `calculate`.
- `Display` is the script.

Each stage is modelled as the code is written, quirks included:

- Whitespace does not end a number, so `"2 3"` and `"3 4"` are the literals `23` and `34`, not errors.
- Pass 1 keeps a `Stack`. It is proved to hold at most one value on tokenizer output (`Multiplicative.StackHoldsAtMostOne`).
- A malformed literal such as `1.2.3` or `.` passes the tokenizer, and `isNumber` rejects it. Pass 1 runs over the whole list before pass 2 starts. It stops at the first `*` or `/` without a number on each side, or at the first division by zero, whichever comes first (`Multiplicative.FirstMalformedReported`). So the error depends on where the literal stands:
  - right after `*` or `/`, it leaves that operator without a right operand, and pass 1 gives "Invalid expression format near" naming that operator (`Examples.PassesOfMalformedAfterTimes`). This holds even when another `*` or `/` follows the literal: `5/1.2.3*2` names the `/` (`Examples.PassesOfMalformedBetweenOperators`);
  - otherwise, followed by `*` or `/`, it leaves that operator without a left operand, and pass 1 names that operator (`Examples.PassesOfMalformedBeforeTimes`);
  - otherwise pass 1 copies it into its list. When pass 1 succeeds on the whole list, pass 2 gives "Expression can't start with operator" for a literal in first place, as `Evaluator.LeadingSignRejected` does for a leading sign. For a literal after `+` or `-` it gives "Operator must be followed by a number". A pass-1 error anywhere in the expression is reported instead: `1.2.3+5/0` gives "Division by zero" (`Examples.PassesOfMalformedThenDivisionByZero`).

  The "Unexpected token in second pass" error is therefore never raised (`Evaluator.UnexpectedTokenUnreachable`).
- Pass 2 counts the first operand twice (see Findings).
- The display script accepts a leading `-`, but both endpoints refuse it (`Evaluator.LeadingSignRejected`, `SingleOperation.NegativeFirstOperandRefused`).

The main results are these:

- `Multiplicative.Pass1LeftAssociative` proves that pass 1 on a well-formed token list equals an independent reference definition (`Multiplicative.Groups`). In that reference, `*` and `/` chain left to right inside each additive term.
- `Evaluator.EvaluateWellFormed` proves what the whole evaluator returns on a well-formed expression. The code as written returns the first term plus the signed sum of the terms (`Additive.TermSum`). The corrected evaluator returns the sum alone. In both, a division by zero is the only possible error.
- `Multiplicative.Pass1NeedsNumbersAround` and `Multiplicative.FirstMalformedReported` say when pass 1 raises "Invalid expression format near". It happens exactly when some `*` or `/` lacks a number on one side, unless a division by zero comes first.

## Model

| member | source | states |
|---|---|---|
| Text.IsDigit | calculator/src/test/java/com/example/calculator/CalculatorController.java:94 | no contract; `Character.isDigit` on ASCII: `0` to `9` (non-ASCII digits are under Left out) |
| Text.IsWhitespace | calculator/src/test/java/com/example/calculator/CalculatorController.java:102 | no contract; `Character.isWhitespace` on ASCII: codes 9 to 13, 28 to 31 and the space (non-ASCII spaces are under Left out) |
| Text.IsTrimmable | calculator/src/test/java/com/example/calculator/CalculatorController.java:83-87 | no contract; what `String.trim` removes at either end: every character up to the space; specified through `Text.TrimSpec` |
| Text.IsBlank | calculator/src/test/java/com/example/calculator/CalculatorController.java:83 | no contract; `trim().isEmpty()`, also the test at line 41 of the main-tree controller: every character is trimmable; specified by `Text.TrimSpec`, `Evaluator.EmptyExpressionExactly` and `SingleOperation.CalculateEmpty` |
| Text.IsOperator | calculator/src/test/java/com/example/calculator/CalculatorController.java:69-71 | no contract; the four characters `+`, `-`, `*`, `/`, the same test as the main tree's loop (`calculator/src/main/java/com/example/calculator/CalculatorController.java:51`); used by `Tokenizer.TokenizeRejects`, `SingleOperation.ScanOperatorSpec` and `Display.AppendValueSpec` |
| Text.Trim | calculator/src/test/java/com/example/calculator/CalculatorController.java:87 | no contract; specified by `Text.TrimSpec` |
| Text.TrimSpec | calculator/src/test/java/com/example/calculator/CalculatorController.java:83-87 | trimming removes only leading and trailing characters up to the space; the result is empty exactly when the input is blank |
| Text.IsDecimalLiteral | calculator/src/test/java/com/example/calculator/CalculatorController.java:73-81 | no contract; `Double.valueOf` on a digit/dot string succeeds exactly when it has a digit and at most one dot; specified by `Examples.MalformedLiterals` and `Syntax.OperatorIsNotNumber` |
| Text.LiteralValue | calculator/src/test/java/com/example/calculator/CalculatorController.java:121 | no contract; the exact value of a digit/dot literal (mantissa over a power of ten); specified by `Text.LiteralZero` and the worked examples |
| Text.LiteralZero | calculator/src/test/java/com/example/calculator/CalculatorController.java:128-132 | the exact value of a digit/dot literal is zero exactly when all its digits are `0` (`"0.00"`, `".0"`); the code's rounded value is also zero for literals too small for a `double` (see Left out) |
| Syntax.IsNumber | calculator/src/test/java/com/example/calculator/CalculatorController.java:73-81 | no contract; `isNumber` on a token's text, through `Text.IsDecimalLiteral`; specified by `Syntax.OperatorIsNotNumber` and `Examples.MalformedLiterals` |
| Syntax.NumberValue | calculator/src/test/java/com/example/calculator/CalculatorController.java:128 | no contract; `Double.parseDouble` of a number token, through `Text.LiteralValue`; specified by `Text.LiteralZero` |
| Syntax.Message | calculator/src/test/java/com/example/calculator/CalculatorController.java:82-191 | no contract; the message of each exception the evaluator throws, one per error, with the offending character, operator or token appended where the code appends it |
| Syntax.OperatorIsNotNumber | calculator/src/test/java/com/example/calculator/CalculatorController.java:73-81 | `isNumber` rejects every operator token and every one-character operator string, so the `isNumber` branches never take `"*"`, `"/"`, `"+"` or `"-"` |
| Tokenizer.Scan | calculator/src/test/java/com/example/calculator/CalculatorController.java:93-109 | no contract; specified by `Tokenizer.ScanJoin`, `Tokenizer.ScanShaped` and `Tokenizer.ScanRejects` |
| Tokenizer.Tokenize | calculator/src/test/java/com/example/calculator/CalculatorController.java:83-111 | no contract; specified by `Tokenizer.TokenizeEmpty`, `Tokenizer.TokenizeRejects`, `Tokenizer.TokenizeSuccess` and `Tokenizer.NoTokensUnreachable` |
| Tokenizer.TokenizeEmpty | calculator/src/test/java/com/example/calculator/CalculatorController.java:83-85 | the tokenizer reports "Expression cannot be empty" exactly for blank input |
| Tokenizer.TokenizeRejects | calculator/src/test/java/com/example/calculator/CalculatorController.java:91-111 | non-blank input fails exactly when the trimmed text holds a character other than a digit, `.`, operator or whitespace, and the error names the first one |
| Tokenizer.ScanJoin | calculator/src/test/java/com/example/calculator/CalculatorController.java:93-109 | the emitted tokens, concatenated, spell the emitted text, the pending literal and the rest of the input without whitespace |
| Tokenizer.ScanShaped | calculator/src/test/java/com/example/calculator/CalculatorController.java:93-109 | the scan emits only non-empty digit/dot runs and single operators, with never two runs side by side |
| Tokenizer.TokenizeSuccess | calculator/src/test/java/com/example/calculator/CalculatorController.java:91-109 | on success the tokens join to the trimmed input minus its whitespace, are shaped and are not empty |
| Tokenizer.NoTokensUnreachable | calculator/src/test/java/com/example/calculator/CalculatorController.java:111 | the "no token" error is never raised when whitespace is ASCII |
| Multiplicative.Combine | calculator/src/test/java/com/example/calculator/CalculatorController.java:134 | no contract; `left * right` for `*`, `left / right` for `/`, on exact reals (floating point is under Left out); the fold it performs is specified by `Multiplicative.Pass1LeftAssociative` |
| Multiplicative.Pass1 | calculator/src/test/java/com/example/calculator/CalculatorController.java:115-154 | no contract; specified by `Multiplicative.Pass1UsesOneSlot`, `Multiplicative.Pass1LeftAssociative`, `Multiplicative.Pass1NeedsNumbersAround` and `Multiplicative.FirstMalformedReported` |
| Multiplicative.Fold | calculator/src/test/java/com/example/calculator/CalculatorController.java:118-154 | pass 1 only appends to its output, never appends `*` or `/`, and fails only with "Invalid expression format near" or a division by zero |
| Multiplicative.StackHoldsAtMostOne | calculator/src/test/java/com/example/calculator/CalculatorController.java:116-154 | on tokenizer output the operand stack never holds more than one value, so pass 1 equals its single-register form |
| Multiplicative.Pass1UsesOneSlot | calculator/src/test/java/com/example/calculator/CalculatorController.java:115-154 | pass 1 over shaped tokens equals the single-register pass |
| Multiplicative.FoldItems | calculator/src/test/java/com/example/calculator/CalculatorController.java:141-154 | every entry pass 1 emits is a computed operand, a `+` or `-`, or a literal that is not a number |
| Multiplicative.FoldNonEmpty | calculator/src/test/java/com/example/calculator/CalculatorController.java:141-154 | pass 1 with a token, an operand or output left returns a non-empty list |
| Multiplicative.FoldLiteralsFollowSigns | calculator/src/test/java/com/example/calculator/CalculatorController.java:141-154 | on tokenizer output every literal pass 1 copies through is the first entry or comes right after a `+` or `-` |
| Multiplicative.Pass1LiteralsFollowSigns | calculator/src/test/java/com/example/calculator/CalculatorController.java:115-154 | the same for the whole pass-1 list |
| Multiplicative.FoldNeedsNumbersAround | calculator/src/test/java/com/example/calculator/CalculatorController.java:118-140 | the loop succeeds only if every `*` and `/` has a number on each side |
| Multiplicative.FoldNeverMalformed | calculator/src/test/java/com/example/calculator/CalculatorController.java:118-140 | when every `*` and `/` has a number on each side, the loop never fails with "Invalid expression format near" |
| Multiplicative.FoldReportsMalformed | calculator/src/test/java/com/example/calculator/CalculatorController.java:118-140 | the first `*` or `/` without a number on each side, with no division by zero before it, is the operator the loop's error names |
| Multiplicative.Pass1NeedsNumbersAround | calculator/src/test/java/com/example/calculator/CalculatorController.java:122-125 | pass 1 succeeds only if every `*` and `/` has a number on each side, and when all have one, "Invalid expression format near" is never raised |
| Multiplicative.FirstMalformedReported | calculator/src/test/java/com/example/calculator/CalculatorController.java:122-125 | the first `*` or `/` lacking a number on a side, with no division by zero before it, makes pass 1 fail with "Invalid expression format near" and that operator |
| Multiplicative.GroupStep | calculator/src/test/java/com/example/calculator/CalculatorController.java:122-140 | one reference step fails exactly on `/` with a zero right operand, and then with a division by zero |
| Multiplicative.GroupsAlternating | calculator/src/test/java/com/example/calculator/CalculatorController.java:141-154 | on well-formed tokens the reference result alternates number, sign, number, …, number |
| Multiplicative.SlotAfterPrefix | calculator/src/test/java/com/example/calculator/CalculatorController.java:118-148 | after every odd-length prefix the single-register pass holds the reference's last term and has emitted the others, or has failed with the reference's error |
| Multiplicative.Pass1LeftAssociative | calculator/src/test/java/com/example/calculator/CalculatorController.java:115-154 | on well-formed tokens pass 1 equals the reference in which `*` and `/` chain left to right, and the leftmost division by zero is the one reported |
| Additive.Apply | calculator/src/test/java/com/example/calculator/CalculatorController.java:179-183 | no contract; `+` adds the operand, any other operator subtracts it; specified through `Additive.AddLoopSpec` and its signed sum |
| Additive.AddLoop | calculator/src/test/java/com/example/calculator/CalculatorController.java:169-188 | no contract; specified by `Additive.AddLoopSpec` |
| Additive.AddPass | calculator/src/test/java/com/example/calculator/CalculatorController.java:158-190 | no contract; specified by `Additive.AddPassSpec`, `Additive.FirstOperandCountedTwice` and `Additive.AddPassOnTerms` |
| Additive.AddPassCorrected | calculator/src/test/java/com/example/calculator/CalculatorController.java:158-190 | pass 2 with the loop started after the seed, as evidently intended; no contract; specified by `Additive.AddPassCorrectedSpec` |
| Additive.AddLoopSpec | calculator/src/test/java/com/example/calculator/CalculatorController.java:169-188 | the pass-2 loop succeeds exactly when every entry passes its checks; it then adds the signed numbers, and otherwise it fails with the first bad entry's error |
| Additive.AddPassSpec | calculator/src/test/java/com/example/calculator/CalculatorController.java:158-190 | pass 2 as written returns 0 on an empty list, fails on a leading non-number, and otherwise returns the first number plus the signed sum of all numbers |
| Additive.SignIsNotNumber | calculator/src/test/java/com/example/calculator/CalculatorController.java:171-177 | a `+` or `-` entry is never a number |
| Additive.AddPassCorrectedSpec | calculator/src/test/java/com/example/calculator/CalculatorController.java:158-190 | the corrected pass 2 fails as pass 2 does and otherwise returns the signed sum alone |
| Additive.FirstOperandCountedTwice | calculator/src/test/java/com/example/calculator/CalculatorController.java:161-169 | wherever pass 2 succeeds, it exceeds the corrected value by exactly the first number |
| Additive.SingleOperandDoubled | calculator/src/test/java/com/example/calculator/CalculatorController.java:161-188 | pass 2 turns the lone operand 5 into 10; the corrected pass gives 5 |
| Additive.AlternatingAccepted | calculator/src/test/java/com/example/calculator/CalculatorController.java:169-188 | an alternating list starts with a number and passes every check of the pass-2 loop |
| Additive.AddPassOnTerms | calculator/src/test/java/com/example/calculator/CalculatorController.java:158-190 | on an alternating list pass 2 returns the first term plus the signed sum of the terms, and the corrected pass returns the sum |
| Evaluator.Passes | calculator/src/test/java/com/example/calculator/CalculatorController.java:115-190 | no contract; specified by `Evaluator.PassesWellFormed` |
| Evaluator.Evaluate | calculator/src/test/java/com/example/calculator/CalculatorController.java:82-191 | no contract; specified by `Evaluator.EvaluateWellFormed`, `Evaluator.InvalidCharacterFirst`, `Evaluator.UnexpectedTokenUnreachable` and the leading-operator lemmas |
| Evaluator.EvaluateRequest | calculator/src/test/java/com/example/calculator/CalculatorController.java:83-85 | no contract; specified by `Evaluator.EmptyExpressionExactly` |
| Evaluator.PassesCorrected | calculator/src/test/java/com/example/calculator/CalculatorController.java:115-190 | both passes with pass 2 starting after its seed, as evidently intended; no contract; specified by `Evaluator.PassesWellFormed` |
| Evaluator.EvaluateCorrected | calculator/src/test/java/com/example/calculator/CalculatorController.java:82-191 | the evaluator with the corrected pass 2; no contract; specified by `Evaluator.EvaluateWellFormed` |
| Evaluator.EmptyExpressionExactly | calculator/src/test/java/com/example/calculator/CalculatorController.java:82-85 | "Expression cannot be empty" is reported exactly for a missing or blank expression |
| Evaluator.InvalidCharacterFirst | calculator/src/test/java/com/example/calculator/CalculatorController.java:93-104 | an expression holding a rejected character fails on the first one, before any arithmetic |
| Evaluator.EmptyPassUnreachable | calculator/src/test/java/com/example/calculator/CalculatorController.java:163-164 | pass 1 never hands pass 2 an empty list, so the `return 0` branch is unreachable |
| Evaluator.UnexpectedTokenUnreachable | calculator/src/test/java/com/example/calculator/CalculatorController.java:184-186 | "Unexpected token in second pass" is never raised: a literal that is not a number reaches pass 2 only first or right after a `+` or `-` |
| Evaluator.LeadingMulDivRejected | calculator/src/test/java/com/example/calculator/CalculatorController.java:122-125 | an expression starting with `*` or `/` fails with "Invalid expression format near" and that operator |
| Evaluator.LeadingSignRejected | calculator/src/test/java/com/example/calculator/CalculatorController.java:161-167 | an expression starting with `+` or `-` always fails, and once pass 1 succeeds the error is "Expression can't start with operator" |
| Evaluator.PassesWellFormed | calculator/src/test/java/com/example/calculator/CalculatorController.java:115-190 | on well-formed tokens both passes yield the first term plus the signed sum of terms (corrected: the sum), or a division by zero |
| Evaluator.EvaluateWellFormed | calculator/src/test/java/com/example/calculator/CalculatorController.java:82-191 | the same for a whole expression whose tokens are well formed |
| Examples.SingleNumber | calculator/src/test/java/com/example/calculator/CalculatorController.java:158-190 | `"5"` evaluates to 10 (corrected: 5) |
| Examples.TokensOfSum | calculator/src/test/java/com/example/calculator/CalculatorController.java:91-109 | `"2+3"` tokenizes to `2`, `+`, `3` |
| Examples.SpaceJoinsDigits | calculator/src/test/java/com/example/calculator/CalculatorController.java:93-109 | `"2 3"` tokenizes to the single literal `23` |
| Examples.PassesOfSum | calculator/src/test/java/com/example/calculator/CalculatorController.java:115-190 | both passes over `2 + 3` give 7 (corrected: 5) |
| Examples.SumOfTwo | calculator/src/test/java/com/example/calculator/CalculatorController.java:82-191 | `"2+3"` evaluates to 7 (corrected: 5) |
| Examples.SpacedDigits | calculator/src/test/java/com/example/calculator/CalculatorController.java:91-190 | `"2 3"` evaluates to 46 |
| Examples.PassesOfPrecedence | calculator/src/test/java/com/example/calculator/CalculatorController.java:115-190 | `2 + 3 * 4` gives 16 (corrected: 14) |
| Examples.PassesOfDivisionByZero | calculator/src/test/java/com/example/calculator/CalculatorController.java:130-132 | `5 / 0` fails with "Division by zero" |
| Examples.PassesOfTrailingSign | calculator/src/test/java/com/example/calculator/CalculatorController.java:171-175 | `5 +` fails with "Operator must be followed by a number" |
| Examples.MalformedLiterals | calculator/src/test/java/com/example/calculator/CalculatorController.java:73-81 | `1.2.3` (two dots) and `.` (no digit) are not numbers |
| Examples.PassesOfMalformedLiteral | calculator/src/test/java/com/example/calculator/CalculatorController.java:161-167 | `1.2.3` alone fails with "Expression can't start with operator" |
| Examples.PassesOfDotAfterSign | calculator/src/test/java/com/example/calculator/CalculatorController.java:171-175 | `5 + .` fails with "Operator must be followed by a number" |
| Examples.PassesOfMalformedAfterTimes | calculator/src/test/java/com/example/calculator/CalculatorController.java:122-125 | `5 * 1.2.3` fails with "Invalid expression format near *" |
| Examples.PassesOfMalformedBeforeTimes | calculator/src/test/java/com/example/calculator/CalculatorController.java:122-125 | `1.2.3 * 5` fails with "Invalid expression format near *": the copied literal leaves the `*` without a left operand |
| Examples.PassesOfMalformedBetweenOperators | calculator/src/test/java/com/example/calculator/CalculatorController.java:122-125 | `5 / 1.2.3 * 2` fails with "Invalid expression format near /": the earlier operator, which lacks its right operand, is named |
| Examples.PassesOfMalformedThenDivisionByZero | calculator/src/test/java/com/example/calculator/CalculatorController.java:130-132 | `1.2.3 + 5 / 0` fails with "Division by zero": pass 1 finishes before pass 2 looks at the copied literal |
| SingleOperation.Message | calculator/src/main/java/com/example/calculator/CalculatorController.java:42-121 | no contract; the `"error"` text of each response `calculate` can return, one per error |
| SingleOperation.Calculate | calculator/src/main/java/com/example/calculator/CalculatorController.java:37-123 | no contract; specified by `SingleOperation.CalculateEmpty`, `SingleOperation.CalculateOperatorChecks` and `SingleOperation.CalculateSingleOperator` |
| SingleOperation.ScanOperator | calculator/src/main/java/com/example/calculator/CalculatorController.java:49-63 | the operator loop returns only an index holding an operator, and fails only with "Only single operation supported" or "Invalid operator position" |
| SingleOperation.Arith | calculator/src/main/java/com/example/calculator/CalculatorController.java:83-105 | no contract; specified by `SingleOperation.ArithInverse` |
| SingleOperation.LeftPart | calculator/src/main/java/com/example/calculator/CalculatorController.java:71 | no contract; specified by `SingleOperation.OperandsHaveNoOperator` and `SingleOperation.CalculateSingleOperator` |
| SingleOperation.RightPart | calculator/src/main/java/com/example/calculator/CalculatorController.java:72 | no contract; specified by `SingleOperation.OperandsHaveNoOperator` and `SingleOperation.CalculateSingleOperator` |
| SingleOperation.ScanAfterFound | calculator/src/main/java/com/example/calculator/CalculatorController.java:52-54 | once an operator is recorded, the loop fails exactly when another operator follows |
| SingleOperation.ScanOperatorSpec | calculator/src/main/java/com/example/calculator/CalculatorController.java:49-63 | the loop's verdict from where the operators lie: none found; the first at either end; a second after it (checked before its position); or exactly one inside |
| SingleOperation.CalculateEmpty | calculator/src/main/java/com/example/calculator/CalculatorController.java:41-43 | "Expression cannot be empty" is reported exactly for a missing or blank expression |
| SingleOperation.CalculateOperatorChecks | calculator/src/main/java/com/example/calculator/CalculatorController.java:49-67 | no operator, a first operator at either end, and a second operator give their errors before any parsing |
| SingleOperation.OperandsHaveNoOperator | calculator/src/main/java/com/example/calculator/CalculatorController.java:71-72 | the trimmed operands on either side of the only operator contain no operator |
| SingleOperation.CalculateSingleOperator | calculator/src/main/java/com/example/calculator/CalculatorController.java:70-117 | with exactly one inner operator, an unparsable operand gives "Invalid number format", otherwise the operation is applied, and the `default` branch is never reached |
| SingleOperation.ArithInverse | calculator/src/main/java/com/example/calculator/CalculatorController.java:83-105 | only a division by zero fails; each result, combined with the right operand by the opposite operation, gives back the left operand; and a product with a zero right operand is 0 |
| SingleOperation.SecondOperatorReportedFirst | calculator/src/main/java/com/example/calculator/CalculatorController.java:51-58 | `"5+3-"` gets "Only single operation supported", not "Invalid operator position" |
| SingleOperation.NegativeFirstOperandRefused | calculator/src/main/java/com/example/calculator/CalculatorController.java:55-59 | `"-5+3"` gets "Invalid operator position" |
| Display.LastChar | calculator/src/main/resources/static/script.js:6 | no contract; `slice(-1)`: the last character as a string, `""` on an empty display; specified through `Display.AppendValueSpec` |
| Display.IsOperatorText | calculator/src/main/resources/static/script.js:7-10 | no contract; `operators.includes(v)`: `v` is one of the one-character strings `/`, `*`, `-`, `+`; specified through `Display.OperatorAfterOperatorDropped` and `Display.OperatorOnEmptyDisplay` |
| Display.SegmentStart | calculator/src/main/resources/static/script.js:21 | the current number segment starts right after the last operator before the position, or at 0 |
| Display.LastSegment | calculator/src/main/resources/static/script.js:21 | no contract; specified by `Display.AppendValueSpec` through `Display.SegmentStart` |
| Display.AppendValue | calculator/src/main/resources/static/script.js:5-27 | no contract; specified by `Display.AppendValueSpec`, `Display.OperatorAfterOperatorDropped` and `Display.OperatorOnEmptyDisplay` |
| Display.ClearDisplay | calculator/src/main/resources/static/script.js:29-31 | no contract; specified by `Display.DeleteKeepsDisplayable` |
| Display.DeleteLast | calculator/src/main/resources/static/script.js:33-35 | no contract; specified by `Display.DeleteLastSpec` and `Display.DeleteUndoesAppend` |
| Display.AppendValueSpec | calculator/src/main/resources/static/script.js:5-27 | a key press leaves the display alone or appends exactly the key, and it appends exactly when the key is accepted character by character |
| Display.OperatorAfterOperatorDropped | calculator/src/main/resources/static/script.js:8-16 | an operator after an operator is dropped, not substituted |
| Display.OperatorOnEmptyDisplay | calculator/src/main/resources/static/script.js:8-16 | on an empty display only `-` is taken among the operators |
| Display.DeleteLastSpec | calculator/src/main/resources/static/script.js:33-35 | deleting removes exactly the last character, and leaves `""` alone |
| Display.DeleteUndoesAppend | calculator/src/main/resources/static/script.js:5-35 | deleting undoes an accepted key press |
| Display.DisplayableAppend | calculator/src/main/resources/static/script.js:18-26 | an accepted key keeps the display free of adjacent operators, leading `+`/`*`/`/`, and two dots in one number |
| Display.AppendKeepsDisplayable | calculator/src/main/resources/static/script.js:5-27 | every one-character key press keeps the display free of adjacent operators, leading `+`/`*`/`/`, and two dots in one number |
| Display.DeleteKeepsDisplayable | calculator/src/main/resources/static/script.js:29-35 | deleting the last character and clearing keep those three properties |

## Left out

- HTTP, JSON and Spring plumbing is not modelled, and neither is logging. The test-tree `calculate` wrapper (test tree `CalculatorController.java:40-67`) is left out too. Its non-finite check builds a response and discards it.
- Floating point is not modelled. Numbers are exact reals, so these guards are absent:
  - "Invalid operation result" (pass 1);
  - "Result is not a finite number" (single-operation endpoint).
- Underflow in `Double.valueOf` is not modelled. The code parses a literal too small for a `double`, such as `0.` followed by 400 zeros and a `1`, as 0.0. Dividing by it therefore gives "Division by zero", while the model divides by the exact non-zero value. The same holds for `Text.LiteralZero`, which speaks of the exact value.
- UTF-16 is not modelled. Java and JavaScript strings are sequences of UTF-16 code units, while a Dafny `char` is a whole Unicode character. For a character outside the Basic Multilingual Plane:
  - "Invalid character in expression" in the code names only its first half (the high surrogate), while `Tokenizer.TokenizeRejects` names the whole character;
  - `slice` in the script works on code units, so `deleteLast` removes half of such a character, while `Display.DeleteLast` removes all of it.
- `String.valueOf` is not modelled either. Pass 1 turns a computed operand back into text, and pass 2 parses it again; the model keeps the exact value instead.
- `Double.valueOf` in the evaluator is modelled only on the strings the tokenizer can produce: digits and dots. It accepts them exactly when they have a digit and at most one dot.
- `Double.parseDouble` in the single-operation endpoint is a parameter `parse` of `SingleOperation.Calculate`, because it accepts far more than digits and dots (signs, exponents, `NaN`, hexadecimal). `None` stands for a `NumberFormatException`.
- The catch-all "Server calculation error" response of the single-operation endpoint is not modelled. No modelled step throws anything else.
- `Character.isDigit` and `Character.isWhitespace` are restricted to ASCII, so the evaluator model differs from the code on non-ASCII input. The model reports a non-ASCII space or digit as an invalid character, but the code accepts it:
  - `"\u2003"` (an em space) is skipped by the code's tokenizer, which then reports "The result of the expression is no token";
  - `"5\u20033"` is the literal `53` in the code and evaluates to 106;
  - a non-ASCII digit joins a literal that `Double.valueOf` then rejects.
- Tokenizer.NoTokensUnreachable: proved only for the ASCII character classes. In the code, input made only of non-ASCII whitespace does reach "The result of the expression is no token".
- Tokenizer.TokenizeRejects: the rejected characters include non-ASCII spaces and digits, which the code accepts.
- `calculateResult` in the script is not modelled. It is the network call and the DOM update.
- Display.AppendKeepsDisplayable: the invariants are proved for one-character keys only. Those are what the buttons send; `appendValue` with a longer string can break them.
- Multiplicative.Pass1LeftAssociative: the reference result covers only well-formed token lists. On other tokenizer output, pass 1 is described by the contract of `Multiplicative.Fold`, by `Multiplicative.FoldItems` and `Multiplicative.FoldLiteralsFollowSigns`, by `Multiplicative.Pass1NeedsNumbersAround` and `Multiplicative.FirstMalformedReported` for its "Invalid expression format near" error, and by the leading-operator lemmas.

## Findings

| source | as written | input that shows it | evidently intended | confidence | as-written member | corrected member |
|---|---|---|---|---|---|---|
| calculator/src/test/java/com/example/calculator/CalculatorController.java:161-169 | pass 2 seeds the total with the first number, then loops from index 0, so it adds that number again | `"5"` gives 10; `"2+3"` gives 7 | loop from index 1, giving 5 and 5 | not executed | Additive.SingleOperandDoubled | Additive.AddPassCorrectedSpec |

=== FILE: additive.dfy ===
/** Pass 2 of `evaluateSimpleExpression`: the pass-1 list is read left to
    right, each `+` or `-` sets the operator for the numbers after it, and
    every number is added to or subtracted from a running total. The total
    starts at the first number and the loop starts at index 0, so the first
    number is counted twice. */
module Additive {
  import opened Wrappers
  import opened Text
  import opened Syntax

  /** The operator character a sign entry carries. */
  function SignChar(it: Item): (c: char)
    requires IsSign(it)
    ensures c == '+' || c == '-'
  {
    TokenText(it.token)[0]
  }

  /** `total += operand` or `total -= operand`: anything but `'+'` subtracts. */
  function Apply(op: char, total: real, operand: real): real {
    if op == '+' then total + operand else total - operand
  }

  /** The pass-2 loop from entry `i` with the running total and the current
      operator. */
  function AddLoop(items: seq<Item>, i: nat, total: real, op: char): Result<real, EvalError>
    requires i <= |items|
    decreases |items| - i
  {
    if i == |items| then Success(total)
    else
      var it := items[i];
      if IsSign(it) then
        if i + 1 >= |items| || !ItemIsNumber(items[i + 1]) then Failure(DanglingOperator)
        else AddLoop(items, i + 1, total, SignChar(it))
      else if ItemIsNumber(it) then AddLoop(items, i + 1, Apply(op, total, ItemValue(it)), op)
      else Failure(UnexpectedToken(it.token))
  }

  /** Pass 2 as written: seed the total with the first number, then run the
      loop from index 0. */
  function AddPass(items: seq<Item>): Result<real, EvalError> {
    if items != [] && ItemIsNumber(items[0]) then AddLoop(items, 0, ItemValue(items[0]), '+')
    else if items == [] then Success(0.0)
    else Failure(LeadingOperator)
  }

  /** Pass 2 as evidently intended: the loop starts after the seed. */
  function AddPassCorrected(items: seq<Item>): Result<real, EvalError> {
    if items != [] && ItemIsNumber(items[0]) then AddLoop(items, 1, ItemValue(items[0]), '+')
    else if items == [] then Success(0.0)
    else Failure(LeadingOperator)
  }

  /** Entry `j` passes the loop's checks: a sign followed by a number, or a
      number. */
  predicate GoodAt(items: seq<Item>, j: nat)
    requires j < |items|
  {
    if IsSign(items[j]) then j + 1 < |items| && ItemIsNumber(items[j + 1])
    else ItemIsNumber(items[j])
  }

  /** Every entry from `i` on passes the loop's checks. */
  predicate AcceptedFrom(items: seq<Item>, i: nat) {
    forall j :: i <= j < |items| ==> GoodAt(items, j)
  }

  /** The first entry at or after `i` that fails the loop's checks, or
      `|items|`. */
  function FirstBad(items: seq<Item>, i: nat): (n: nat)
    requires i <= |items|
    ensures i <= n <= |items|
    ensures forall j :: i <= j < n ==> GoodAt(items, j)
    ensures n < |items| ==> !GoodAt(items, n)
    decreases |items| - i
  {
    if i == |items| || !GoodAt(items, i) then i else FirstBad(items, i + 1)
  }

  /** The error pass 2 reports for the entry that fails its checks. */
  function BadEntryError(it: Item): EvalError
    requires !IsSign(it) ==> it.Raw?
  {
    if IsSign(it) then DanglingOperator else UnexpectedToken(it.token)
  }

  /** The operator in force at entry `i`: the last sign before it, `+` if
      there is none. */
  function SignBefore(items: seq<Item>, i: nat): (c: char)
    requires i <= |items|
    ensures c == '+' || c == '-'
  {
    if i == 0 then '+'
    else if IsSign(items[i - 1]) then SignChar(items[i - 1])
    else SignBefore(items, i - 1)
  }

  /** The reference value of the first `k` entries: every number with the
      sign of the last operator before it, everything else ignored. */
  function SignedSum(items: seq<Item>, k: nat): real
    requires k <= |items|
  {
    if k == 0 then 0.0
    else
      var it := items[k - 1];
      SignedSum(items, k - 1) + (if IsSign(it) || !ItemIsNumber(it) then 0.0
                                 else if SignBefore(items, k - 1) == '+' then ItemValue(it)
                                 else -ItemValue(it))
  }

  /** The loop from `i`, entered with the operator in force there, either
      adds the signed numbers from `i` on to the total or fails at the first
      entry that breaks its checks, with that entry's error. */
  lemma {:induction false} AddLoopSpec(items: seq<Item>, i: nat, total: real)
    requires i <= |items|
    ensures var r := AddLoop(items, i, total, SignBefore(items, i));
            && (r.Success? <==> FirstBad(items, i) == |items|)
            && (r.Success? ==> r.value == total + SignedSum(items, |items|) - SignedSum(items, i))
            && (r.Failure? ==> r.error == BadEntryError(items[FirstBad(items, i)]))
    decreases |items| - i
  {
    if i < |items| {
      var it := items[i];
      if IsSign(it) {
        if i + 1 < |items| && ItemIsNumber(items[i + 1]) {
          AddLoopSpec(items, i + 1, total);
        }
      } else if ItemIsNumber(it) {
        AddLoopSpec(items, i + 1, Apply(SignBefore(items, i), total, ItemValue(it)));
      }
    }
  }

  /** Pass 2 as written succeeds exactly on an empty list or a list that
      starts with a number and whose entries all pass the checks; the value
      is then the first number PLUS the signed sum, which counts the first
      number twice. */
  lemma AddPassSpec(items: seq<Item>)
    ensures items == [] ==> AddPass(items) == Success(0.0)
    ensures items != [] && !ItemIsNumber(items[0]) ==> AddPass(items) == Failure(LeadingOperator)
    ensures items != [] && ItemIsNumber(items[0]) ==>
              var r := AddPass(items);
              && (r.Success? <==> FirstBad(items, 0) == |items|)
              && (r.Success? ==> r.value == ItemValue(items[0]) + SignedSum(items, |items|))
              && (r.Failure? ==> r.error == BadEntryError(items[FirstBad(items, 0)]))
  {
    if items != [] && ItemIsNumber(items[0]) {
      AddLoopSpec(items, 0, ItemValue(items[0]));
    }
  }

  /** A sign is never a number: its one character is not a digit. */
  lemma SignIsNotNumber(it: Item)
    requires IsSign(it)
    ensures !ItemIsNumber(it)
  {
    OperatorIsNotNumber(it.token);
  }

  /** The corrected pass 2 fails as pass 2 does and otherwise returns the
      signed sum itself. */
  lemma AddPassCorrectedSpec(items: seq<Item>)
    ensures items == [] ==> AddPassCorrected(items) == Success(0.0)
    ensures items != [] && !ItemIsNumber(items[0]) ==> AddPassCorrected(items) == Failure(LeadingOperator)
    ensures items != [] && ItemIsNumber(items[0]) ==>
              var r := AddPassCorrected(items);
              && (r.Success? <==> FirstBad(items, 0) == |items|)
              && (r.Success? ==> r.value == SignedSum(items, |items|))
              && (r.Failure? ==> r.error == BadEntryError(items[FirstBad(items, 0)]))
  {
    if items != [] && ItemIsNumber(items[0]) {
      if IsSign(items[0]) {
        SignIsNotNumber(items[0]);
      }
      assert GoodAt(items, 0);
      assert SignBefore(items, 1) == '+';
      AddLoopSpec(items, 1, ItemValue(items[0]));
    }
  }

  /** Wherever pass 2 as written succeeds, its value exceeds the corrected
      value by exactly the first number. */
  lemma FirstOperandCountedTwice(items: seq<Item>)
    requires items != [] && AddPass(items).Success?
    ensures AddPassCorrected(items).Success?
    ensures AddPass(items).value == AddPassCorrected(items).value + ItemValue(items[0])
  {
    AddPassSpec(items);
    AddPassCorrectedSpec(items);
  }

  /** The smallest witness: a single operand 5 evaluates to 10. */
  lemma SingleOperandDoubled()
    ensures AddPass([Num(5.0)]) == Success(10.0)
    ensures AddPassCorrected([Num(5.0)]) == Success(5.0)
  {
  }

  /** Position by position, an alternating list has an odd length, computed
      operands at even positions and signs at odd ones. */
  lemma {:induction false} AlternatingPositions(items: seq<Item>)
    requires Alternating(items)
    ensures |items| % 2 == 1
    ensures forall j :: 0 <= j < |items| && j % 2 == 0 ==> items[j].Num?
    ensures forall j :: 0 <= j < |items| && j % 2 == 1 ==> IsSign(items[j])
    decreases |items|
  {
    if |items| > 1 {
      var p := items[..|items| - 2];
      AlternatingPositions(p);
      forall j | 0 <= j < |items| - 2
        ensures items[j] == p[j]
      {
      }
    }
  }

  /** An alternating list starts with a number and passes every check of
      the pass-2 loop. */
  lemma AlternatingAccepted(items: seq<Item>)
    requires Alternating(items)
    ensures items != [] && items[0].Num?
    ensures FirstBad(items, 0) == |items|
  {
    AlternatingPositions(items);
    forall j | 0 <= j < |items|
      ensures GoodAt(items, j)
    {
      if j % 2 == 1 {
        assert items[j + 1].Num?;
      }
    }
  }

  /** The terms of an alternating list combined left to right, each added
      or subtracted as the sign before it says. */
  function TermSum(items: seq<Item>): real
    requires Alternating(items)
    decreases |items|
  {
    var last := items[|items| - 1].value;
    if |items| == 1 then last
    else if SignChar(items[|items| - 2]) == '+' then TermSum(items[..|items| - 2]) + last
    else TermSum(items[..|items| - 2]) - last
  }

  /** The signed sum of the first `k` entries only looks at those entries. */
  lemma {:induction false} SignedSumPrefix(items: seq<Item>, m: nat, k: nat)
    requires k <= m <= |items|
    ensures SignedSum(items, k) == SignedSum(items[..m], k)
    ensures SignBefore(items, k) == SignBefore(items[..m], k)
    decreases k
  {
    if k > 0 {
      SignedSumPrefix(items, m, k - 1);
      assert items[k - 1] == items[..m][k - 1];
    }
  }

  /** On an alternating list the reference signed sum is the sum of the
      terms with their signs. */
  lemma {:induction false} SignedSumAlternating(items: seq<Item>)
    requires Alternating(items)
    ensures SignedSum(items, |items|) == TermSum(items)
    decreases |items|
  {
    var n := |items|;
    if n == 1 {
      assert !IsSign(items[0]);
    } else {
      var p := items[..n - 2];
      SignedSumAlternating(p);
      SignedSumPrefix(items, n - 2, n - 2);
      assert p[..n - 2] == p;
      assert !IsSign(items[n - 1]);
    }
  }

  /** On an alternating list pass 2 as written returns the first term plus
      the signed sum of the terms, and the corrected pass the sum alone. */
  lemma AddPassOnTerms(items: seq<Item>)
    requires Alternating(items)
    ensures items != []
    ensures AddPass(items) == Success(ItemValue(items[0]) + TermSum(items))
    ensures AddPassCorrected(items) == Success(TermSum(items))
  {
    AlternatingAccepted(items);
    AddPassSpec(items);
    AddPassCorrectedSpec(items);
    SignedSumAlternating(items);
  }
}

=== FILE: display.dfy ===
/** The calculator's display, as the browser script edits it: keys append
    to the display text, which refuses an operator where one cannot start
    or follow, and a second `.` in the number being typed. */
module Display {
  import opened Text

  /** `operators.includes(v)`: `v` is one of the four one-character
      operator strings. */
  predicate IsOperatorText(v: string) {
    |v| == 1 && IsOperator(v[0])
  }

  /** `d.slice(-1)`: the last character as a string, or `""`. */
  function LastChar(d: string): string {
    if d == [] then [] else [d[|d| - 1]]
  }

  /** Where the number segment containing position `n` starts: just after
      the last operator before `n`, or 0. */
  function SegmentStart(d: string, n: nat): (st: nat)
    requires n <= |d|
    ensures st <= n
    ensures forall k :: st <= k < n ==> !IsOperator(d[k])
    ensures st > 0 ==> IsOperator(d[st - 1])
  {
    if n == 0 then 0
    else if IsOperator(d[n - 1]) then n
    else SegmentStart(d, n - 1)
  }

  /** `d.split(/[\/\*\-\+]/).pop()`: the text after the last operator. */
  function LastSegment(d: string): string {
    d[SegmentStart(d, |d|)..]
  }

  /** `appendValue(value)`: the display after a key press. */
  function AppendValue(d: string, value: string): string {
    if IsOperatorText(value) && (IsOperatorText(LastChar(d)) || d == []) then
      if value == "-" && d == [] then d + value else d
    else if value == "." && '.' in LastSegment(d) then d
    else d + value
  }

  /** `clearDisplay()`. */
  function ClearDisplay(): string {
    []
  }

  /** `deleteLast()`: `d.slice(0, -1)`, which leaves `""` alone. */
  function DeleteLast(d: string): string {
    if d == [] then [] else d[..|d| - 1]
  }

  /** When a one-character key is taken, stated character by character: an
      operator only after a non-operator, or as a leading `-`; a `.` only
      if the current number has none; anything else always. */
  predicate Accepts(d: string, c: char) {
    if IsOperator(c) then
      && (d == [] ==> c == '-')
      && (d != [] ==> !IsOperator(d[|d| - 1]))
    else
      c == '.' ==> forall k :: SegmentStart(d, |d|) <= k < |d| ==> d[k] != '.'
  }

  /** No two operators side by side. */
  predicate NoAdjacentOperators(d: string) {
    forall i :: 0 < i < |d| ==> !(IsOperator(d[i - 1]) && IsOperator(d[i]))
  }

  /** The display does not start with `+`, `*` or `/` (a leading `-` is
      allowed). */
  predicate NoLeadingOperator(d: string) {
    d != [] ==> d[0] == '-' || !IsOperator(d[0])
  }

  /** No number segment holds two dots: between any two dots there is an
      operator. */
  predicate OneDotPerSegment(d: string) {
    forall i, j :: 0 <= i < j < |d| && d[i] == '.' && d[j] == '.' ==> i < SegmentStart(d, j)
  }

  /** What the keys keep true of the display. */
  predicate Displayable(d: string) {
    NoAdjacentOperators(d) && NoLeadingOperator(d) && OneDotPerSegment(d)
  }

  /** A key press either leaves the display alone or appends exactly the
      key, and it appends it exactly when the key is accepted. */
  lemma AppendValueSpec(d: string, c: char)
    ensures AppendValue(d, [c]) == d || AppendValue(d, [c]) == d + [c]
    ensures AppendValue(d, [c]) == d + [c] <==> Accepts(d, c)
  {
    var st := SegmentStart(d, |d|);
    assert LastSegment(d) == d[st..];
    if c == '.' {
      assert '.' in LastSegment(d) <==> exists k :: st <= k < |d| && d[k] == '.' by {
        if '.' in LastSegment(d) {
          var m :| 0 <= m < |d[st..]| && d[st..][m] == '.';
          assert d[st + m] == '.';
        }
        if exists k :: st <= k < |d| && d[k] == '.' {
          var k :| st <= k < |d| && d[k] == '.';
          assert d[st..][k - st] == '.';
        }
      }
    }
    assert d + [c] != d;
  }

  /** An operator after an operator is dropped; it does not replace the one
      already there. */
  lemma OperatorAfterOperatorDropped(d: string, c: char)
    requires IsOperator(c) && d != [] && IsOperator(d[|d| - 1])
    ensures AppendValue(d, [c]) == d
  {
  }

  /** On an empty display only `-` is taken among the operators. */
  lemma OperatorOnEmptyDisplay(c: char)
    requires IsOperator(c)
    ensures AppendValue([], [c]) == (if c == '-' then "-" else [])
  {
  }

  /** Deleting removes exactly the last character, if there is one. */
  lemma DeleteLastSpec(d: string)
    ensures d == [] ==> DeleteLast(d) == []
    ensures d != [] ==> DeleteLast(d) + [d[|d| - 1]] == d
  {
  }

  /** Deleting undoes an accepted key press. */
  lemma DeleteUndoesAppend(d: string, c: char)
    requires Accepts(d, c)
    ensures DeleteLast(AppendValue(d, [c])) == d
  {
    AppendValueSpec(d, c);
    assert (d + [c])[..|d|] == d;
  }

  /** The segment start of a position depends only on the text before it. */
  lemma {:induction false} SegmentStartPrefix(d: string, m: nat, n: nat)
    requires n <= m <= |d|
    ensures SegmentStart(d, n) == SegmentStart(d[..m], n)
    decreases n
  {
    if n > 0 {
      assert d[..m][n - 1] == d[n - 1];
      SegmentStartPrefix(d, m, n - 1);
    }
  }

  /** A prefix of a displayable text is displayable. */
  lemma DisplayablePrefix(d: string, m: nat)
    requires m <= |d| && Displayable(d)
    ensures Displayable(d[..m])
  {
    var p := d[..m];
    forall i, j | 0 <= i < j < |p| && p[i] == '.' && p[j] == '.'
      ensures i < SegmentStart(p, j)
    {
      assert d[i] == '.' && d[j] == '.';
      SegmentStartPrefix(d, m, j);
    }
    forall i | 0 < i < |p|
      ensures !(IsOperator(p[i - 1]) && IsOperator(p[i]))
    {
      assert p[i - 1] == d[i - 1] && p[i] == d[i];
    }
  }

  /** Appending an accepted key keeps the display displayable. */
  lemma DisplayableAppend(d: string, c: char)
    requires Displayable(d) && Accepts(d, c)
    ensures Displayable(d + [c])
  {
    var e := d + [c];
    assert e[..|d|] == d;
    forall i, j | 0 <= i < j < |e| && e[i] == '.' && e[j] == '.'
      ensures i < SegmentStart(e, j)
    {
      SegmentStartPrefix(e, |d|, j);
      assert d[i] == '.';
      if j < |d| {
        assert d[j] == '.';
      }
    }
    forall i | 0 < i < |e|
      ensures !(IsOperator(e[i - 1]) && IsOperator(e[i]))
    {
      if i < |d| {
        assert e[i - 1] == d[i - 1] && e[i] == d[i];
      }
    }
  }

  /** A one-character key press keeps the display free of adjacent
      operators, of a leading `+`, `*` or `/`, and of a second dot in any
      number. */
  lemma AppendKeepsDisplayable(d: string, c: char)
    requires Displayable(d)
    ensures Displayable(AppendValue(d, [c]))
  {
    AppendValueSpec(d, c);
    if Accepts(d, c) {
      DisplayableAppend(d, c);
    }
  }

  /** Deleting the last character, and clearing, keep the display
      displayable too. */
  lemma DeleteKeepsDisplayable(d: string)
    requires Displayable(d)
    ensures Displayable(DeleteLast(d))
    ensures Displayable(ClearDisplay())
  {
    if d != [] {
      DisplayablePrefix(d, |d| - 1);
    }
  }
}

=== FILE: evaluator.dfy ===
/** `evaluateSimpleExpression` end to end: the tokenizer, pass 1 and pass 2
    chained, each stage's exception ending the evaluation. */
module Evaluator {
  import opened Wrappers
  import opened Text
  import opened Syntax
  import opened Tokenizer
  import opened Multiplicative
  import opened Additive

  /** Both passes over a token list, as written. */
  function Passes(toks: seq<Token>): Result<real, EvalError> {
    var items :- Pass1(toks);
    AddPass(items)
  }

  /** Both passes, with pass 2 corrected to count the first operand once. */
  function PassesCorrected(toks: seq<Token>): Result<real, EvalError> {
    var items :- Pass1(toks);
    AddPassCorrected(items)
  }

  /** The evaluator as written. */
  function Evaluate(expression: string): Result<real, EvalError> {
    var toks :- Tokenize(expression);
    Passes(toks)
  }

  /** The evaluator with the corrected pass 2. */
  function EvaluateCorrected(expression: string): Result<real, EvalError> {
    var toks :- Tokenize(expression);
    PassesCorrected(toks)
  }

  /** A request whose expression may be missing (`null` in Java). */
  function EvaluateRequest(expression: Option<string>): Result<real, EvalError> {
    match expression
    case None => Failure(EmptyExpression)
    case Some(s) => Evaluate(s)
  }

  /** A missing expression, and a present one that is blank, are the only
      inputs reported as empty. */
  lemma EmptyExpressionExactly(expression: Option<string>)
    ensures EvaluateRequest(expression) == Failure(EmptyExpression)
            <==> expression.None? || IsBlank(expression.value)
  {
    if expression.Some? {
      var s := expression.value;
      TokenizeEmpty(s);
      var t := Tokenize(s);
      if t.Success? {
        var p := Pass1(t.value);
        if p.Success? {
          AddPassSpec(p.value);
        }
      }
    }
  }

  /** A non-blank expression with a character outside digits, `.`,
      operators and whitespace fails on the first such character, before
      any arithmetic. */
  lemma InvalidCharacterFirst(expression: string)
    requires !IsBlank(expression)
    ensures var e := Trim(expression);
            FirstRejected(e, 0) < |e| ==> Evaluate(expression) == Failure(InvalidCharacter(e[FirstRejected(e, 0)]))
  {
    TokenizeRejects(expression);
  }

  /** Pass 1 never hands an empty list to pass 2, so the `return 0` for an
      empty list is unreachable. */
  lemma EmptyPassUnreachable(expression: string)
    requires Tokenize(expression).Success?
    requires Pass1(Tokenize(expression).value).Success?
    ensures Pass1(Tokenize(expression).value).value != []
  {
    TokenizeSuccess(expression);
    FoldNonEmpty(Tokenize(expression).value, 0, [], []);
  }

  /** Pass 2's "Unexpected token in second pass" is never raised: a literal
      that is not a number reaches pass 2 only as its first entry, which is
      reported as a leading operator, or right after a `+` or `-`, which is
      reported as a dangling operator. */
  lemma UnexpectedTokenUnreachable(expression: string)
    ensures !(Evaluate(expression).Failure? && Evaluate(expression).error.UnexpectedToken?)
  {
    var t := Tokenize(expression);
    if t.Success? {
      TokenizeSuccess(expression);
      var p := Pass1(t.value);
      if p.Success? {
        var items := p.value;
        FoldItems(t.value, 0, [], []);
        Pass1LiteralsFollowSigns(t.value);
        AddPassSpec(items);
        if items != [] && ItemIsNumber(items[0]) {
          var n := FirstBad(items, 0);
          if 0 < n < |items| {
            assert GoodAt(items, n - 1);
          }
        }
      }
    } else if IsBlank(expression) {
      TokenizeEmpty(expression);
    } else {
      TokenizeRejects(expression);
    }
  }

  /** An expression that starts with `*` or `/` fails in pass 1, naming the
      operator. */
  lemma LeadingMulDivRejected(expression: string)
    requires Tokenize(expression).Success?
    requires var toks := Tokenize(expression).value;
             toks[0] == Op('*') || toks[0] == Op('/')
    ensures Evaluate(expression) == Failure(MalformedNear(TokenText(Tokenize(expression).value[0])))
  {
    TokenizeSuccess(expression);
    var toks := Tokenize(expression).value;
    OperatorIsNotNumber(toks[0]);
  }

  /** An expression that starts with `+` or `-` (a negative first number
      included) always fails; once pass 1 succeeds the error is the leading
      operator. */
  lemma LeadingSignRejected(expression: string)
    requires Tokenize(expression).Success?
    requires var toks := Tokenize(expression).value;
             toks[0] == Op('+') || toks[0] == Op('-')
    ensures Evaluate(expression).Failure?
    ensures Pass1(Tokenize(expression).value).Success? ==> Evaluate(expression) == Failure(LeadingOperator)
  {
    TokenizeSuccess(expression);
    var toks := Tokenize(expression).value;
    var t := toks[0];
    OperatorIsNotNumber(t);
    assert TokenText(t) == [t.symbol];
    var p := Pass1(toks);
    assert FlushTop([], []) + [Raw(t)] == [Raw(t)];
    assert p == Fold(toks, 1, [], [Raw(t)]);
    if p.Success? {
      assert p.value[0] == Raw(t);
      assert !ItemIsNumber(p.value[0]);
    }
  }

  /** On a well-formed token list (number, operator, ..., number) both
      passes as written compute the first term PLUS the terms left by pass 1
      combined with their signs, and the corrected passes compute just that
      sum; the only possible error is a division by zero. */
  lemma PassesWellFormed(toks: seq<Token>)
    requires WellFormed(toks)
    ensures var g := Groups(toks);
            && (g.Failure? ==>
                  (Passes(toks) == Failure(DivisionByZero) && PassesCorrected(toks) == Failure(DivisionByZero)))
            && (g.Success? ==>
                  && Alternating(g.value)
                  && Passes(toks) == Success(ItemValue(g.value[0]) + TermSum(g.value))
                  && PassesCorrected(toks) == Success(TermSum(g.value)))
  {
    Pass1LeftAssociative(toks);
    var g := Groups(toks);
    if g.Success? {
      GroupsAlternating(toks, |toks|);
      AddPassOnTerms(g.value);
    }
  }

  /** The same for an expression whose tokens are well formed: on success
      the evaluator as written exceeds the corrected one by the first term. */
  lemma EvaluateWellFormed(expression: string)
    requires Tokenize(expression).Success? && WellFormed(Tokenize(expression).value)
    ensures var g := Groups(Tokenize(expression).value);
            && (g.Failure? ==>
                  (Evaluate(expression) == Failure(DivisionByZero)
                   && EvaluateCorrected(expression) == Failure(DivisionByZero)))
            && (g.Success? ==>
                  && Alternating(g.value)
                  && Evaluate(expression) == Success(ItemValue(g.value[0]) + TermSum(g.value))
                  && EvaluateCorrected(expression) == Success(TermSum(g.value)))
  {
    PassesWellFormed(Tokenize(expression).value);
  }
}

=== FILE: examples.dfy ===
/** Worked evaluations of short expressions, each pinned to the value or
    error the Java code produces for it. */
module Examples {
  import opened Wrappers
  import opened Text
  import opened Syntax
  import opened Tokenizer
  import opened Multiplicative
  import opened Additive
  import opened Evaluator

  /** A one-digit literal is a number with the digit's value. */
  lemma DigitLiteral(d: char)
    requires IsDigit(d)
    ensures IsNumber(Lit([d])) && IsNumberLiteral(Lit([d]))
    ensures NumberValue(Lit([d])) == (d as int - '0' as int) as real
  {
    var s := [d];
    assert IsDigit(s[0]);
    assert s[..0] == [] && s[1..] == [];
    assert DotCount(s) == 0;
    assert Mantissa(s) == d as int - '0' as int;
    assert FractionLength(s) == 0;
  }

  /** `"5"` evaluates to 10: the only operand is counted twice. */
  lemma SingleNumber()
    ensures Evaluate("5") == Success(10.0)
    ensures EvaluateCorrected("5") == Success(5.0)
  {
    TrimKeeps("5");
    DigitLiteral('5');
    assert [] + ['5'] == "5";
    assert Flush([], "5") == [Lit("5")];
    assert Scan("5", 1, "5", []) == Success([Lit("5")]);
    assert Tokenize("5") == Success([Lit("5")]);
  }

  /** `"2+3"` splits into a number, an operator and a number. */
  lemma TokensOfSum()
    ensures Tokenize("2+3") == Success([Lit("2"), Op('+'), Lit("3")])
  {
    TrimKeeps("2+3");
    var toks := [Lit("2"), Op('+'), Lit("3")];
    assert [] + ['2'] == "2" && [] + ['3'] == "3";
    assert Flush([Lit("2"), Op('+')], "3") == toks;
    assert Scan("2+3", 2, [], [Lit("2"), Op('+')]) == Success(toks);
    assert Flush([], "2") + [Op('+')] == [Lit("2"), Op('+')];
    assert Scan("2+3", 0, [], []) == Success(toks);
  }

  /** `"2 3"` is the single literal `23`: whitespace does not end a number. */
  lemma SpaceJoinsDigits()
    ensures Tokenize("2 3") == Success([Lit("23")])
  {
    TrimKeeps("2 3");
    assert [] + ['2'] == "2" && "2" + ['3'] == "23";
    assert Flush([], "23") == [Lit("23")];
    assert Scan("2 3", 0, [], []) == Success([Lit("23")]);
  }

  /** Both passes over `2 + 3`: the first operand is counted twice. */
  lemma PassesOfSum()
    ensures Passes([Lit("2"), Op('+'), Lit("3")]) == Success(7.0)
    ensures PassesCorrected([Lit("2"), Op('+'), Lit("3")]) == Success(5.0)
  {
    var toks := [Lit("2"), Op('+'), Lit("3")];
    DigitLiteral('2');
    DigitLiteral('3');
    assert !IsNumber(Op('+')) by { OperatorIsNotNumber(Op('+')); }
    var items := [Num(2.0), Raw(Op('+')), Num(3.0)];
    assert FlushTop([], [2.0]) + [Raw(Op('+'))] == [Num(2.0), Raw(Op('+'))];
    assert FlushTop([Num(2.0), Raw(Op('+'))], [3.0]) == items;
    assert Pass1(toks) == Success(items);
    assert TokenText(Op('+')) == "+";
  }

  /** `"2+3"` evaluates to 7. */
  lemma SumOfTwo()
    ensures Evaluate("2+3") == Success(7.0)
    ensures EvaluateCorrected("2+3") == Success(5.0)
  {
    TokensOfSum();
    PassesOfSum();
  }

  /** `"2 3"` evaluates to 46: the literal 23, counted twice. */
  lemma SpacedDigits()
    ensures Evaluate("2 3") == Success(46.0)
  {
    SpaceJoinsDigits();
    var s := "23";
    assert IsDigit(s[0]);
    assert s[..1] == "2" && s[1..] == "3" && s[1..][1..] == [];
    assert "2"[..0] == [];
    assert Mantissa("2") == 2;
    assert s[|s| - 1] == '3' && s[..|s| - 1] == "2";
    assert Mantissa(s) == 10 * Mantissa("2") + 3;
    assert DotCount(s) == 0 && FractionLength(s) == 0;
    assert IsNumber(Lit(s)) && NumberValue(Lit(s)) == 23.0;
    assert FlushTop([], [23.0]) == [Num(23.0)];
    assert Pass1([Lit(s)]) == Success([Num(23.0)]);
  }

  /** `2 + 3 * 4`: pass 1 folds the product first, then pass 2 counts the
      leading 2 twice, giving 16 where 14 is intended. */
  lemma PassesOfPrecedence()
    ensures Passes([Lit("2"), Op('+'), Lit("3"), Op('*'), Lit("4")]) == Success(16.0)
    ensures PassesCorrected([Lit("2"), Op('+'), Lit("3"), Op('*'), Lit("4")]) == Success(14.0)
  {
    var toks := [Lit("2"), Op('+'), Lit("3"), Op('*'), Lit("4")];
    DigitLiteral('2');
    DigitLiteral('3');
    DigitLiteral('4');
    assert !IsNumber(Op('+')) by { OperatorIsNotNumber(Op('+')); }
    assert !IsNumber(Op('*')) by { OperatorIsNotNumber(Op('*')); }
    assert TokenText(Op('+')) == "+" && TokenText(Op('*')) == "*";
    var items := [Num(2.0), Raw(Op('+')), Num(12.0)];
    assert FlushTop([], [2.0]) + [Raw(Op('+'))] == [Num(2.0), Raw(Op('+'))];
    assert [3.0][..0] + [3.0 * 4.0] == [12.0];
    assert FlushTop([Num(2.0), Raw(Op('+'))], [12.0]) == items;
    assert Pass1(toks) == Success(items);
  }

  /** `5 / 0` is a division by zero, reported by pass 1. */
  lemma PassesOfDivisionByZero()
    ensures Passes([Lit("5"), Op('/'), Lit("0")]) == Failure(DivisionByZero)
  {
    DigitLiteral('5');
    DigitLiteral('0');
    assert !IsNumber(Op('/')) by { OperatorIsNotNumber(Op('/')); }
    assert TokenText(Op('/')) == "/";
  }

  /** `5 +` ends with an operator: pass 2 reports it as dangling. */
  lemma PassesOfTrailingSign()
    ensures Passes([Lit("5"), Op('+')]) == Failure(DanglingOperator)
  {
    DigitLiteral('5');
    assert !IsNumber(Op('+')) by { OperatorIsNotNumber(Op('+')); }
    assert TokenText(Op('+')) == "+";
    assert FlushTop([], [5.0]) + [Raw(Op('+'))] == [Num(5.0), Raw(Op('+'))];
  }

  /** `1.2.3` has two dots and `.` has no digit: neither is a number. */
  lemma MalformedLiterals()
    ensures !IsNumber(Lit("1.2.3")) && !IsNumber(Lit("."))
  {
    assert "1.2.3"[..4] == "1.2." && "1.2."[..3] == "1.2" && "1.2"[..2] == "1." && "1."[..1] == "1";
    assert DotCount("1.2.3") == 2;
    assert !IsDigit('.');
  }

  /** A malformed literal on its own is copied through pass 1 and then
      reported by pass 2 as a leading operator. */
  lemma PassesOfMalformedLiteral()
    ensures Passes([Lit("1.2.3")]) == Failure(LeadingOperator)
  {
    MalformedLiterals();
    assert FlushTop([], []) + [Raw(Lit("1.2.3"))] == [Raw(Lit("1.2.3"))];
  }

  /** `5 + .`: the dot is not a number, so the `+` before it is dangling. */
  lemma PassesOfDotAfterSign()
    ensures Passes([Lit("5"), Op('+'), Lit(".")]) == Failure(DanglingOperator)
  {
    DigitLiteral('5');
    MalformedLiterals();
    assert !IsNumber(Op('+')) by { OperatorIsNotNumber(Op('+')); }
    assert TokenText(Op('+')) == "+";
    assert FlushTop([], [5.0]) + [Raw(Op('+'))] == [Num(5.0), Raw(Op('+'))];
    assert FlushTop([Num(5.0), Raw(Op('+'))], []) + [Raw(Lit("."))] == [Num(5.0), Raw(Op('+')), Raw(Lit("."))];
  }

  /** `5 * 1.2.3`: the right operand of `*` is not a number, so pass 1
      names the `*`. */
  lemma PassesOfMalformedAfterTimes()
    ensures Passes([Lit("5"), Op('*'), Lit("1.2.3")]) == Failure(MalformedNear("*"))
  {
    DigitLiteral('5');
    MalformedLiterals();
    assert !IsNumber(Op('*')) by { OperatorIsNotNumber(Op('*')); }
    assert TokenText(Op('*')) == "*";
  }

  /** `1.2.3 * 5`: the malformed literal is copied through, so the `*` finds
      no operand on its left and pass 1 names it. */
  lemma PassesOfMalformedBeforeTimes()
    ensures Passes([Lit("1.2.3"), Op('*'), Lit("5")]) == Failure(MalformedNear("*"))
  {
    MalformedLiterals();
    assert !IsNumber(Op('*')) by { OperatorIsNotNumber(Op('*')); }
    assert TokenText(Op('*')) == "*";
    assert FlushTop([], []) + [Raw(Lit("1.2.3"))] == [Raw(Lit("1.2.3"))];
  }

  /** `5 / 1.2.3 * 2`: the literal stands between two operators; the `/`
      before it is met first and lacks its right operand, so pass 1 names
      the `/`. */
  lemma PassesOfMalformedBetweenOperators()
    ensures Passes([Lit("5"), Op('/'), Lit("1.2.3"), Op('*'), Lit("2")]) == Failure(MalformedNear("/"))
  {
    DigitLiteral('5');
    MalformedLiterals();
    assert !IsNumber(Op('/')) by { OperatorIsNotNumber(Op('/')); }
    assert TokenText(Op('/')) == "/";
  }

  /** `1.2.3 + 5 / 0`: pass 1 runs to the end before pass 2 looks at the
      copied literal, so the division by zero is what is reported. */
  lemma PassesOfMalformedThenDivisionByZero()
    ensures Passes([Lit("1.2.3"), Op('+'), Lit("5"), Op('/'), Lit("0")]) == Failure(DivisionByZero)
  {
    MalformedLiterals();
    DigitLiteral('5');
    DigitLiteral('0');
    assert !IsNumber(Op('+')) by { OperatorIsNotNumber(Op('+')); }
    assert !IsNumber(Op('/')) by { OperatorIsNotNumber(Op('/')); }
    assert TokenText(Op('+')) == "+" && TokenText(Op('/')) == "/";
    assert FlushTop([], []) + [Raw(Lit("1.2.3"))] == [Raw(Lit("1.2.3"))];
  }
}

=== FILE: multiplicative.dfy ===
/** Pass 1 of `evaluateSimpleExpression`: every `*` and `/` is folded into
    the operand on its left, left to right, and what remains (computed
    operands, `+`, `-` and tokens that are not numbers) is copied into the
    pass-1 list. */
module Multiplicative {
  import opened Wrappers
  import opened Text
  import opened Syntax

  /** The pass-1 list after the top of the operand stack, if any, is moved
      into it. */
  function FlushTop(out: seq<Item>, stack: seq<real>): seq<Item> {
    if stack == [] then out else out + [Num(stack[|stack| - 1])]
  }

  /** `left * right` or `left / right`, as the operator token says. */
  function Combine(op: Token, left: real, right: real): real
    requires Spells(op, '*') || right != 0.0
  {
    if Spells(op, '*') then left * right else left / right
  }

  /** The pass-1 loop from token `i`, with the Java operand stack as a
      sequence (its top is the last element) and the pass-1 list so far. */
  function Fold(toks: seq<Token>, i: nat, stack: seq<real>, out: seq<Item>): (r: Result<seq<Item>, EvalError>)
    requires i <= |toks|
    ensures r.Success? ==> out <= r.value
    ensures r.Success? ==> forall k :: |out| <= k < |r.value| ==> !IsMulDiv(r.value[k])
    ensures r.Failure? ==> r.error.MalformedNear? || r.error == DivisionByZero
    decreases |toks| - i
  {
    if i == |toks| then Success(FlushTop(out, stack))
    else
      var t := toks[i];
      if IsNumber(t) then Fold(toks, i + 1, stack + [NumberValue(t)], out)
      else if Spells(t, '*') || Spells(t, '/') then
        if stack == [] || i + 1 >= |toks| || !IsNumber(toks[i + 1]) then
          Failure(MalformedNear(TokenText(t)))
        else
          var left := stack[|stack| - 1];
          var right := NumberValue(toks[i + 1]);
          if Spells(t, '/') && right == 0.0 then Failure(DivisionByZero)
          else
            Fold(toks, i + 2, stack[..|stack| - 1] + [Combine(t, left, right)], out)
      else Fold(toks, i + 1, [], FlushTop(out, stack) + [Raw(t)])
  }

  /** Pass 1 over the whole token list. */
  function Pass1(toks: seq<Token>): Result<seq<Item>, EvalError> {
    Fold(toks, 0, [], [])
  }

  /** The pass-1 list after the held operand, if any, is moved into it. */
  function Release(out: seq<Item>, held: Option<real>): seq<Item> {
    match held
    case None => out
    case Some(v) => out + [Num(v)]
  }

  /** Pass 1 with a single "held operand" register instead of a stack. */
  function FoldSlot(toks: seq<Token>, i: nat, held: Option<real>, out: seq<Item>): (r: Result<seq<Item>, EvalError>)
    requires i <= |toks|
    decreases |toks| - i
  {
    if i == |toks| then Success(Release(out, held))
    else
      var t := toks[i];
      if IsNumber(t) then FoldSlot(toks, i + 1, Some(NumberValue(t)), out)
      else if Spells(t, '*') || Spells(t, '/') then
        if held.None? || i + 1 >= |toks| || !IsNumber(toks[i + 1]) then
          Failure(MalformedNear(TokenText(t)))
        else
          var right := NumberValue(toks[i + 1]);
          if Spells(t, '/') && right == 0.0 then Failure(DivisionByZero)
          else
            FoldSlot(toks, i + 2, Some(Combine(t, held.value, right)), out)
      else FoldSlot(toks, i + 1, None, Release(out, held) + [Raw(t)])
  }

  /** Pass 1 emits something whenever it has a token left, an operand held
      or output already: the list it returns is never empty. */
  lemma {:induction false} FoldNonEmpty(toks: seq<Token>, i: nat, stack: seq<real>, out: seq<Item>)
    requires i <= |toks| && (i < |toks| || stack != [] || out != [])
    requires Fold(toks, i, stack, out).Success?
    ensures Fold(toks, i, stack, out).value != []
    decreases |toks| - i
  {
    if out == [] && i < |toks| {
      var t := toks[i];
      if IsNumber(t) {
        FoldNonEmpty(toks, i + 1, stack + [NumberValue(t)], out);
      } else if Spells(t, '*') || Spells(t, '/') {
        var folded := Combine(t, stack[|stack| - 1], NumberValue(toks[i + 1]));
        FoldNonEmpty(toks, i + 2, stack[..|stack| - 1] + [folded], out);
      }
    }
  }

  /** A token that folds: `*` or `/` with a number after it, and not a
      division by zero. */
  predicate FoldsAt(toks: seq<Token>, i: nat) {
    && i + 1 < |toks|
    && !IsNumber(toks[i])
    && (Spells(toks[i], '*') || Spells(toks[i], '/'))
    && IsNumber(toks[i + 1])
    && !(Spells(toks[i], '/') && NumberValue(toks[i + 1]) == 0.0)
  }

  lemma FoldStep(toks: seq<Token>, i: nat, stack: seq<real>, out: seq<Item>)
    requires FoldsAt(toks, i) && stack != []
    ensures Fold(toks, i, stack, out)
         == Fold(toks, i + 2, stack[..|stack| - 1] + [Combine(toks[i], stack[|stack| - 1], NumberValue(toks[i + 1]))], out)
  {
    var r := Fold(toks, i + 2, stack[..|stack| - 1] + [Combine(toks[i], stack[|stack| - 1], NumberValue(toks[i + 1]))], out);
    if r.Failure? {
      assert Fold(toks, i, stack, out) == r;
    }
  }

  /** A `*` or `/` at which the loop goes on to succeed has an operand
      held and a number after it, and folds. */
  lemma FoldSucceeds(toks: seq<Token>, i: nat, stack: seq<real>, out: seq<Item>)
    requires i < |toks| && !IsNumber(toks[i]) && (Spells(toks[i], '*') || Spells(toks[i], '/'))
    requires Fold(toks, i, stack, out).Success?
    ensures FoldsAt(toks, i) && stack != []
    ensures Fold(toks, i, stack, out)
         == Fold(toks, i + 2, stack[..|stack| - 1] + [Combine(toks[i], stack[|stack| - 1], NumberValue(toks[i + 1]))], out)
  {
    FoldStep(toks, i, stack, out);
  }

  lemma FoldSlotStep(toks: seq<Token>, i: nat, held: real, out: seq<Item>)
    requires FoldsAt(toks, i)
    ensures FoldSlot(toks, i, Some(held), out)
         == FoldSlot(toks, i + 2, Some(Combine(toks[i], held, NumberValue(toks[i + 1]))), out)
  {
    var r := FoldSlot(toks, i + 2, Some(Combine(toks[i], held, NumberValue(toks[i + 1]))), out);
    if r.Failure? {
      assert FoldSlot(toks, i, Some(held), out) == r;
    }
  }

  /** The stack holds at most one value, and only right after a literal was
      consumed (pushed, or used as a right operand). */
  predicate StackInvariant(toks: seq<Token>, i: nat, stack: seq<real>) {
    && |stack| <= 1
    && (|stack| == 1 ==> 0 < i <= |toks| && toks[i - 1].Lit?)
  }

  function Slot(stack: seq<real>): Option<real> {
    if stack == [] then None else Some(stack[|stack| - 1])
  }

  /** On tokenizer output the operand stack never holds more than one value:
      a number is pushed only when the stack is empty, because two literals
      are never adjacent. So the stack behaves as a single register. */
  lemma {:induction false} StackHoldsAtMostOne(toks: seq<Token>, i: nat, stack: seq<real>, out: seq<Item>)
    requires Shaped(toks) && i <= |toks| && StackInvariant(toks, i, stack)
    ensures Fold(toks, i, stack, out) == FoldSlot(toks, i, Slot(stack), out)
    decreases |toks| - i
  {
    if i < |toks| {
      var t := toks[i];
      if IsNumber(t) {
        if IsOperatorToken(t) {
          OperatorIsNotNumber(t);
        }
        assert stack == [];
        StackHoldsAtMostOne(toks, i + 1, stack + [NumberValue(t)], out);
      } else if Spells(t, '*') || Spells(t, '/') {
        if stack != [] && i + 1 < |toks| && IsNumber(toks[i + 1]) {
          var right := NumberValue(toks[i + 1]);
          if !(Spells(t, '/') && right == 0.0) {
            if IsOperatorToken(toks[i + 1]) {
              OperatorIsNotNumber(toks[i + 1]);
            }
            var folded := Combine(t, stack[|stack| - 1], right);
            FoldStep(toks, i, stack, out);
            FoldSlotStep(toks, i, stack[|stack| - 1], out);
            StackHoldsAtMostOne(toks, i + 2, stack[..|stack| - 1] + [folded], out);
          }
        }
      } else {
        StackHoldsAtMostOne(toks, i + 1, [], FlushTop(out, stack) + [Raw(t)]);
      }
    }
  }

  /** Pass 1 equals its single-register formulation on tokenizer output. */
  lemma Pass1UsesOneSlot(toks: seq<Token>)
    requires Shaped(toks)
    ensures Pass1(toks) == FoldSlot(toks, 0, None, [])
  {
    StackHoldsAtMostOne(toks, 0, [], []);
  }

  /** On tokenizer output, every entry pass 1 adds is a computed operand, a
      `+` or `-` operator token, or a literal that is not a valid number;
      `*` and `/` never survive. */
  lemma {:induction false} FoldItems(toks: seq<Token>, i: nat, stack: seq<real>, out: seq<Item>)
    requires Shaped(toks) && i <= |toks|
    requires Fold(toks, i, stack, out).Success?
    ensures var items := Fold(toks, i, stack, out).value;
            forall k :: |out| <= k < |items| ==>
              || items[k].Num?
              || items[k] == Raw(Op('+')) || items[k] == Raw(Op('-'))
              || (items[k].Raw? && items[k].token.Lit? && !IsNumber(items[k].token))
    decreases |toks| - i
  {
    if i < |toks| {
      var t := toks[i];
      if IsNumber(t) {
        FoldItems(toks, i + 1, stack + [NumberValue(t)], out);
      } else if Spells(t, '*') || Spells(t, '/') {
        var folded := Combine(t, stack[|stack| - 1], NumberValue(toks[i + 1]));
        FoldStep(toks, i, stack, out);
        FoldItems(toks, i + 2, stack[..|stack| - 1] + [folded], out);
      } else {
        var out' := FlushTop(out, stack) + [Raw(t)];
        FoldItems(toks, i + 1, [], out');
        if t.Op? {
          assert TokenText(t) == [t.symbol];
        }
      }
    }
  }

  /** Every literal entry from `from` on is the first entry or comes right
      after a `+` or `-`. */
  predicate LiteralsFollowSigns(items: seq<Item>, from: nat) {
    forall k :: from <= k < |items| && items[k].Raw? && items[k].token.Lit? ==> k == 0 || IsSign(items[k - 1])
  }

  /** A literal copied now would be first or follow a sign: an operand is
      pending (so no literal comes next), nothing was emitted, a sign was
      emitted last, or a literal was, which the next token cannot be. */
  predicate ReadyForLiteral(toks: seq<Token>, i: nat, stack: seq<real>, out: seq<Item>)
    requires i <= |toks|
  {
    || stack != []
    || out == []
    || IsSign(out[|out| - 1])
    || (out[|out| - 1].Raw? && out[|out| - 1].token.Lit? && (i < |toks| ==> !toks[i].Lit?))
  }

  /** On tokenizer output, a literal that pass 1 copies through (one that is
      not a number) is the first entry of the list or comes right after a
      `+` or `-`. */
  lemma {:induction false} FoldLiteralsFollowSigns(toks: seq<Token>, i: nat, stack: seq<real>, out: seq<Item>)
    requires Shaped(toks) && i <= |toks|
    requires StackInvariant(toks, i, stack) && ReadyForLiteral(toks, i, stack, out)
    requires Fold(toks, i, stack, out).Success?
    ensures LiteralsFollowSigns(Fold(toks, i, stack, out).value, |out|)
    decreases |toks| - i, 1
  {
    if i < |toks| {
      if IsNumber(toks[i]) {
        FollowSignsAfterPush(toks, i, stack, out);
      } else if Spells(toks[i], '*') || Spells(toks[i], '/') {
        FollowSignsAfterFold(toks, i, stack, out);
      } else {
        FollowSignsAfterCopy(toks, i, stack, out);
      }
    }
  }

  /** `FoldLiteralsFollowSigns` when token `i` is a number and is pushed. */
  lemma {:induction false} FollowSignsAfterPush(toks: seq<Token>, i: nat, stack: seq<real>, out: seq<Item>)
    requires Shaped(toks) && i < |toks| && IsNumber(toks[i])
    requires StackInvariant(toks, i, stack) && ReadyForLiteral(toks, i, stack, out)
    requires Fold(toks, i, stack, out).Success?
    ensures LiteralsFollowSigns(Fold(toks, i, stack, out).value, |out|)
    decreases |toks| - i, 0
  {
    var t := toks[i];
    if IsOperatorToken(t) {
      OperatorIsNotNumber(t);
    }
    FoldLiteralsFollowSigns(toks, i + 1, stack + [NumberValue(t)], out);
  }

  /** `FoldLiteralsFollowSigns` when token `i` is `*` or `/` and folds. */
  lemma {:induction false} FollowSignsAfterFold(toks: seq<Token>, i: nat, stack: seq<real>, out: seq<Item>)
    requires Shaped(toks) && i < |toks| && !IsNumber(toks[i])
    requires Spells(toks[i], '*') || Spells(toks[i], '/')
    requires StackInvariant(toks, i, stack) && ReadyForLiteral(toks, i, stack, out)
    requires Fold(toks, i, stack, out).Success?
    ensures LiteralsFollowSigns(Fold(toks, i, stack, out).value, |out|)
    decreases |toks| - i, 0
  {
    FoldSucceeds(toks, i, stack, out);
    if IsOperatorToken(toks[i + 1]) {
      OperatorIsNotNumber(toks[i + 1]);
    }
    var folded := Combine(toks[i], stack[|stack| - 1], NumberValue(toks[i + 1]));
    FoldLiteralsFollowSigns(toks, i + 2, stack[..|stack| - 1] + [folded], out);
  }

  /** `FoldLiteralsFollowSigns` when token `i` is copied into the list. */
  lemma {:induction false} FollowSignsAfterCopy(toks: seq<Token>, i: nat, stack: seq<real>, out: seq<Item>)
    requires Shaped(toks) && i < |toks| && !IsNumber(toks[i])
    requires !(Spells(toks[i], '*') || Spells(toks[i], '/'))
    requires StackInvariant(toks, i, stack) && ReadyForLiteral(toks, i, stack, out)
    requires Fold(toks, i, stack, out).Success?
    ensures LiteralsFollowSigns(Fold(toks, i, stack, out).value, |out|)
    decreases |toks| - i, 0
  {
    var out' := FlushTop(out, stack) + [Raw(toks[i])];
    CopyFollowsSign(toks, i, stack, out);
    FoldLiteralsFollowSigns(toks, i + 1, [], out');
    LiteralsFollowSignsJoin(out', Fold(toks, i + 1, [], out').value, |out|);
  }

  /** Copying a token that is neither a number nor `*`/`/` keeps literals
      after signs, and leaves the list ready for the next token. */
  lemma CopyFollowsSign(toks: seq<Token>, i: nat, stack: seq<real>, out: seq<Item>)
    requires Shaped(toks) && i < |toks|
    requires StackInvariant(toks, i, stack) && ReadyForLiteral(toks, i, stack, out)
    requires !IsNumber(toks[i]) && !(Spells(toks[i], '*') || Spells(toks[i], '/'))
    ensures var out' := FlushTop(out, stack) + [Raw(toks[i])];
            LiteralsFollowSigns(out', |out|) && ReadyForLiteral(toks, i + 1, [], out')
  {
    var t := toks[i];
    if t.Op? {
      assert TokenText(t) == [t.symbol];
    } else {
      assert stack == [];
    }
  }

  /** A list that keeps literals after signs from `from` up to the end of a
      prefix, and from there on, keeps them from `from`. */
  lemma LiteralsFollowSignsJoin(p: seq<Item>, r: seq<Item>, from: nat)
    requires p <= r && from <= |p|
    requires LiteralsFollowSigns(p, from) && LiteralsFollowSigns(r, |p|)
    ensures LiteralsFollowSigns(r, from)
  {
    forall k | from <= k < |p| && r[k].Raw? && r[k].token.Lit?
      ensures k == 0 || IsSign(r[k - 1])
    {
      assert r[k] == p[k];
      if k > 0 {
        assert r[k - 1] == p[k - 1];
      }
    }
  }

  /** Pass 1's output on tokenizer output: every literal in it is first or
      follows a `+` or `-`. */
  lemma Pass1LiteralsFollowSigns(toks: seq<Token>)
    requires Shaped(toks) && Pass1(toks).Success?
    ensures LiteralsFollowSigns(Pass1(toks).value, 0)
  {
    FoldLiteralsFollowSigns(toks, 0, [], []);
  }

  /** Token `j` is the string `"*"` or `"/"`. */
  predicate MulDivAt(toks: seq<Token>, j: nat)
    requires j < |toks|
  {
    Spells(toks[j], '*') || Spells(toks[j], '/')
  }

  /** Token `j` has a number on each side. */
  predicate NumbersAround(toks: seq<Token>, j: nat)
    requires j < |toks|
  {
    0 < j && IsNumber(toks[j - 1]) && j + 1 < |toks| && IsNumber(toks[j + 1])
  }

  /** Token `j` is a `/` whose right operand is zero. */
  predicate ZeroDivisorAt(toks: seq<Token>, j: nat)
    requires j < |toks|
  {
    Spells(toks[j], '/') && j + 1 < |toks| && IsNumber(toks[j + 1]) && NumberValue(toks[j + 1]) == 0.0
  }

  /** The operand stack is non-empty exactly when the token just consumed
      was a number (pushed, or used as a right operand). */
  predicate HeldAfterNumber(toks: seq<Token>, i: nat, stack: seq<real>)
    requires i <= |toks|
  {
    stack != [] <==> 0 < i && IsNumber(toks[i - 1])
  }

  /** From token `i` on, the loop succeeds only if every `*` and `/` has a
      number on each side. */
  lemma {:induction false} FoldNeedsNumbersAround(toks: seq<Token>, i: nat, stack: seq<real>, out: seq<Item>)
    requires i <= |toks| && HeldAfterNumber(toks, i, stack)
    requires Fold(toks, i, stack, out).Success?
    ensures forall j :: i <= j < |toks| && MulDivAt(toks, j) ==> NumbersAround(toks, j)
    decreases |toks| - i, 1
  {
    if i < |toks| {
      if IsNumber(toks[i]) {
        NeedsNumbersAfterPush(toks, i, stack, out);
      } else if Spells(toks[i], '*') || Spells(toks[i], '/') {
        NeedsNumbersAfterFold(toks, i, stack, out);
      } else {
        NeedsNumbersAfterCopy(toks, i, stack, out);
      }
    }
  }

  /** `FoldNeedsNumbersAround` when token `i` is a number and is pushed. */
  lemma {:induction false} NeedsNumbersAfterPush(toks: seq<Token>, i: nat, stack: seq<real>, out: seq<Item>)
    requires i < |toks| && HeldAfterNumber(toks, i, stack) && IsNumber(toks[i])
    requires Fold(toks, i, stack, out).Success?
    ensures forall j :: i <= j < |toks| && MulDivAt(toks, j) ==> NumbersAround(toks, j)
    decreases |toks| - i, 0
  {
    var t := toks[i];
    assert !MulDivAt(toks, i) by { OperatorIsNotNumber(t); }
    FoldNeedsNumbersAround(toks, i + 1, stack + [NumberValue(t)], out);
  }

  /** `FoldNeedsNumbersAround` when token `i` is `*` or `/` and folds. */
  lemma {:induction false} NeedsNumbersAfterFold(toks: seq<Token>, i: nat, stack: seq<real>, out: seq<Item>)
    requires i < |toks| && HeldAfterNumber(toks, i, stack) && !IsNumber(toks[i])
    requires Spells(toks[i], '*') || Spells(toks[i], '/')
    requires Fold(toks, i, stack, out).Success?
    ensures forall j :: i <= j < |toks| && MulDivAt(toks, j) ==> NumbersAround(toks, j)
    decreases |toks| - i, 0
  {
    FoldSucceeds(toks, i, stack, out);
    assert !MulDivAt(toks, i + 1) by { OperatorIsNotNumber(toks[i + 1]); }
    var folded := Combine(toks[i], stack[|stack| - 1], NumberValue(toks[i + 1]));
    FoldNeedsNumbersAround(toks, i + 2, stack[..|stack| - 1] + [folded], out);
    forall j | i <= j < i + 2 && MulDivAt(toks, j)
      ensures NumbersAround(toks, j)
    {
      if j == i {
        assert IsNumber(toks[i - 1]);
      }
    }
  }

  /** `FoldNeedsNumbersAround` when token `i` is copied into the list. */
  lemma {:induction false} NeedsNumbersAfterCopy(toks: seq<Token>, i: nat, stack: seq<real>, out: seq<Item>)
    requires i < |toks| && HeldAfterNumber(toks, i, stack) && !IsNumber(toks[i])
    requires !(Spells(toks[i], '*') || Spells(toks[i], '/'))
    requires Fold(toks, i, stack, out).Success?
    ensures forall j :: i <= j < |toks| && MulDivAt(toks, j) ==> NumbersAround(toks, j)
    decreases |toks| - i, 0
  {
    FoldNeedsNumbersAround(toks, i + 1, [], FlushTop(out, stack) + [Raw(toks[i])]);
  }

  /** From token `i` on, when every `*` and `/` has a number on each side,
      the loop never fails with "Invalid expression format near". */
  lemma {:induction false} FoldNeverMalformed(toks: seq<Token>, i: nat, stack: seq<real>, out: seq<Item>)
    requires i <= |toks| && HeldAfterNumber(toks, i, stack)
    requires forall j :: i <= j < |toks| && MulDivAt(toks, j) ==> NumbersAround(toks, j)
    ensures !(Fold(toks, i, stack, out).Failure? && Fold(toks, i, stack, out).error.MalformedNear?)
    decreases |toks| - i, 1
  {
    if i < |toks| {
      if IsNumber(toks[i]) {
        NeverMalformedAfterPush(toks, i, stack, out);
      } else if Spells(toks[i], '*') || Spells(toks[i], '/') {
        NeverMalformedAfterFold(toks, i, stack, out);
      } else {
        NeverMalformedAfterCopy(toks, i, stack, out);
      }
    }
  }

  /** `FoldNeverMalformed` when token `i` is a number and is pushed. */
  lemma {:induction false} NeverMalformedAfterPush(toks: seq<Token>, i: nat, stack: seq<real>, out: seq<Item>)
    requires i < |toks| && HeldAfterNumber(toks, i, stack) && IsNumber(toks[i])
    requires forall j :: i <= j < |toks| && MulDivAt(toks, j) ==> NumbersAround(toks, j)
    ensures !(Fold(toks, i, stack, out).Failure? && Fold(toks, i, stack, out).error.MalformedNear?)
    decreases |toks| - i, 0
  {
    var t := toks[i];
    assert !MulDivAt(toks, i) by { OperatorIsNotNumber(t); }
    FoldNeverMalformed(toks, i + 1, stack + [NumberValue(t)], out);
  }

  /** `FoldNeverMalformed` when token `i` is `*` or `/`: it has its numbers,
      so it either divides by zero or folds. */
  lemma {:induction false} NeverMalformedAfterFold(toks: seq<Token>, i: nat, stack: seq<real>, out: seq<Item>)
    requires i < |toks| && HeldAfterNumber(toks, i, stack) && !IsNumber(toks[i])
    requires Spells(toks[i], '*') || Spells(toks[i], '/')
    requires forall j :: i <= j < |toks| && MulDivAt(toks, j) ==> NumbersAround(toks, j)
    ensures !(Fold(toks, i, stack, out).Failure? && Fold(toks, i, stack, out).error.MalformedNear?)
    decreases |toks| - i, 0
  {
    var t := toks[i];
    assert MulDivAt(toks, i);
    var right := NumberValue(toks[i + 1]);
    if !(Spells(t, '/') && right == 0.0) {
      assert !MulDivAt(toks, i + 1) by { OperatorIsNotNumber(toks[i + 1]); }
      var folded := Combine(t, stack[|stack| - 1], right);
      FoldStep(toks, i, stack, out);
      FoldNeverMalformed(toks, i + 2, stack[..|stack| - 1] + [folded], out);
    }
  }

  /** `FoldNeverMalformed` when token `i` is copied into the list. */
  lemma {:induction false} NeverMalformedAfterCopy(toks: seq<Token>, i: nat, stack: seq<real>, out: seq<Item>)
    requires i < |toks| && HeldAfterNumber(toks, i, stack) && !IsNumber(toks[i])
    requires !(Spells(toks[i], '*') || Spells(toks[i], '/'))
    requires forall j :: i <= j < |toks| && MulDivAt(toks, j) ==> NumbersAround(toks, j)
    ensures !(Fold(toks, i, stack, out).Failure? && Fold(toks, i, stack, out).error.MalformedNear?)
    decreases |toks| - i, 0
  {
    FoldNeverMalformed(toks, i + 1, [], FlushTop(out, stack) + [Raw(toks[i])]);
  }

  /** From token `i` on, the first `*` or `/` without a number on each side,
      with no division by zero before it, is the operator the loop's error
      names. */
  lemma {:induction false} FoldReportsMalformed(toks: seq<Token>, i: nat, stack: seq<real>, out: seq<Item>, j: nat)
    requires i <= j < |toks| && HeldAfterNumber(toks, i, stack)
    requires MulDivAt(toks, j) && !NumbersAround(toks, j)
    requires forall m :: i <= m < j && MulDivAt(toks, m) ==> NumbersAround(toks, m) && !ZeroDivisorAt(toks, m)
    ensures Fold(toks, i, stack, out) == Failure(MalformedNear(TokenText(toks[j])))
    decreases j - i, 1
  {
    if i == j {
      assert !IsNumber(toks[i]) by { OperatorIsNotNumber(toks[i]); }
    } else if IsNumber(toks[i]) {
      ReportsMalformedAfterPush(toks, i, stack, out, j);
    } else if Spells(toks[i], '*') || Spells(toks[i], '/') {
      ReportsMalformedAfterFold(toks, i, stack, out, j);
    } else {
      ReportsMalformedAfterCopy(toks, i, stack, out, j);
    }
  }

  /** `FoldReportsMalformed` before `j`, when token `i` is a number. */
  lemma {:induction false} ReportsMalformedAfterPush(toks: seq<Token>, i: nat, stack: seq<real>, out: seq<Item>, j: nat)
    requires i < j < |toks| && HeldAfterNumber(toks, i, stack) && IsNumber(toks[i])
    requires MulDivAt(toks, j) && !NumbersAround(toks, j)
    requires forall m :: i <= m < j && MulDivAt(toks, m) ==> NumbersAround(toks, m) && !ZeroDivisorAt(toks, m)
    ensures Fold(toks, i, stack, out) == Failure(MalformedNear(TokenText(toks[j])))
    decreases j - i, 0
  {
    FoldReportsMalformed(toks, i + 1, stack + [NumberValue(toks[i])], out, j);
  }

  /** `FoldReportsMalformed` before `j`, when token `i` is `*` or `/`: it
      has its numbers and a non-zero divisor, so it folds. */
  lemma {:induction false} ReportsMalformedAfterFold(toks: seq<Token>, i: nat, stack: seq<real>, out: seq<Item>, j: nat)
    requires i < j < |toks| && HeldAfterNumber(toks, i, stack) && !IsNumber(toks[i])
    requires Spells(toks[i], '*') || Spells(toks[i], '/')
    requires MulDivAt(toks, j) && !NumbersAround(toks, j)
    requires forall m :: i <= m < j && MulDivAt(toks, m) ==> NumbersAround(toks, m) && !ZeroDivisorAt(toks, m)
    ensures Fold(toks, i, stack, out) == Failure(MalformedNear(TokenText(toks[j])))
    decreases j - i, 0
  {
    var t := toks[i];
    assert MulDivAt(toks, i);
    assert !IsNumber(toks[j]) by { OperatorIsNotNumber(toks[j]); }
    var folded := Combine(t, stack[|stack| - 1], NumberValue(toks[i + 1]));
    FoldStep(toks, i, stack, out);
    FoldReportsMalformed(toks, i + 2, stack[..|stack| - 1] + [folded], out, j);
  }

  /** `FoldReportsMalformed` before `j`, when token `i` is copied. */
  lemma {:induction false} ReportsMalformedAfterCopy(toks: seq<Token>, i: nat, stack: seq<real>, out: seq<Item>, j: nat)
    requires i < j < |toks| && HeldAfterNumber(toks, i, stack) && !IsNumber(toks[i])
    requires !(Spells(toks[i], '*') || Spells(toks[i], '/'))
    requires MulDivAt(toks, j) && !NumbersAround(toks, j)
    requires forall m :: i <= m < j && MulDivAt(toks, m) ==> NumbersAround(toks, m) && !ZeroDivisorAt(toks, m)
    ensures Fold(toks, i, stack, out) == Failure(MalformedNear(TokenText(toks[j])))
    decreases j - i, 0
  {
    FoldReportsMalformed(toks, i + 1, [], FlushTop(out, stack) + [Raw(toks[i])], j);
  }

  /** When pass 1 raises "Invalid expression format near": it succeeds only
      if every `*` and `/` has a number on each side; when they all have,
      that error never arises. */
  lemma Pass1NeedsNumbersAround(toks: seq<Token>)
    ensures Pass1(toks).Success? ==>
              forall j :: 0 <= j < |toks| && MulDivAt(toks, j) ==> NumbersAround(toks, j)
    ensures (forall j :: 0 <= j < |toks| && MulDivAt(toks, j) ==> NumbersAround(toks, j)) ==>
              !(Pass1(toks).Failure? && Pass1(toks).error.MalformedNear?)
  {
    if Pass1(toks).Success? {
      FoldNeedsNumbersAround(toks, 0, [], []);
    }
    if forall j :: 0 <= j < |toks| && MulDivAt(toks, j) ==> NumbersAround(toks, j) {
      FoldNeverMalformed(toks, 0, [], []);
    }
  }

  /** The first `*` or `/` without a number on each side, with no division
      by zero before it, is the operator named by "Invalid expression
      format near". */
  lemma FirstMalformedReported(toks: seq<Token>, j: nat)
    requires j < |toks| && MulDivAt(toks, j) && !NumbersAround(toks, j)
    requires forall m :: 0 <= m < j && MulDivAt(toks, m) ==> NumbersAround(toks, m) && !ZeroDivisorAt(toks, m)
    ensures Pass1(toks) == Failure(MalformedNear(TokenText(toks[j])))
  {
    FoldReportsMalformed(toks, 0, [], [], j);
  }

  lemma AlternatingExtend(prev: seq<Item>, sign: Token, b: real)
    requires Alternating(prev) && (sign == Op('+') || sign == Op('-'))
    ensures Alternating(prev + [Raw(sign), Num(b)])
  {
    var items := prev + [Raw(sign), Num(b)];
    assert TokenText(sign) == [sign.symbol];
    assert items[..|items| - 2] == prev;
  }

  lemma AlternatingReplaceLast(prev: seq<Item>, v: real)
    requires Alternating(prev)
    ensures Alternating(prev[..|prev| - 1] + [Num(v)])
  {
    var items := prev[..|prev| - 1] + [Num(v)];
    if |prev| > 1 {
      assert items[..|items| - 2] == prev[..|prev| - 2];
    }
  }

  /** The list ends in a computed operand: the term the next `*` or `/`
      folds into. */
  predicate EndsWithNum(items: seq<Item>) {
    items != [] && items[|items| - 1].Num?
  }

  /** One step of the reference pass: operator `op` and the number `b`
      after it, applied to the list built so far. */
  function GroupStep(prev: seq<Item>, op: Token, b: real): (r: Result<seq<Item>, EvalError>)
    requires EndsWithNum(prev) && IsOperatorToken(op)
    ensures r.Success? ==> EndsWithNum(r.value)
    ensures r.Failure? <==> op.symbol == '/' && b == 0.0
    ensures r.Failure? ==> r.error == DivisionByZero
  {
    if op.symbol == '+' || op.symbol == '-' then
      Success(prev + [Raw(op), Num(b)])
    else
      if op.symbol == '/' && b == 0.0 then Failure(DivisionByZero)
      else
        assert TokenText(op) == [op.symbol];
        Success(prev[..|prev| - 1] + [Num(Combine(op, prev[|prev| - 1].value, b))])
  }

  /** The reference step keeps the list alternating. */
  lemma GroupStepAlternating(prev: seq<Item>, op: Token, b: real)
    requires Alternating(prev) && EndsWithNum(prev) && IsOperatorToken(op)
    ensures GroupStep(prev, op, b).Success? ==> Alternating(GroupStep(prev, op, b).value)
  {
    if op.symbol == '+' || op.symbol == '-' {
      AlternatingExtend(prev, op, b);
      assert GroupStep(prev, op, b) == Success(prev + [Raw(op), Num(b)]);
    } else if !(op.symbol == '/' && b == 0.0) {
      GroupStepFolds(prev, op, b);
      AlternatingReplaceLast(prev, Combine(op, prev[|prev| - 1].value, b));
    }
  }

  /** The reference meaning of pass 1 on the first `k` tokens of a
      well-formed list, defined from the right end: the last operator
      either starts a new additive term or folds its number into the term
      before it, so `a*b/c` is `(a*b)/c`. The leftmost division by zero is
      the one reported. */
  function GroupsUpTo(toks: seq<Token>, k: nat): (r: Result<seq<Item>, EvalError>)
    requires k <= |toks| && WellFormedUpTo(toks, k)
    ensures r.Success? ==> EndsWithNum(r.value)
    ensures r.Failure? ==> r.error == DivisionByZero
    decreases k
  {
    if k == 1 then Success([Num(NumberValue(toks[0]))])
    else
      var prev :- GroupsUpTo(toks, k - 2);
      GroupStep(prev, toks[k - 2], NumberValue(toks[k - 1]))
  }

  /** The reference result is number, sign, number, ..., number. */
  lemma {:induction false} GroupsAlternating(toks: seq<Token>, k: nat)
    requires k <= |toks| && WellFormedUpTo(toks, k)
    ensures GroupsUpTo(toks, k).Success? ==> Alternating(GroupsUpTo(toks, k).value)
    decreases k
  {
    if k > 1 {
      GroupsAlternating(toks, k - 2);
      var g := GroupsUpTo(toks, k - 2);
      if g.Success? {
        GroupStepAlternating(g.value, toks[k - 2], NumberValue(toks[k - 1]));
      }
    }
  }

  function Groups(toks: seq<Token>): (r: Result<seq<Item>, EvalError>)
    requires WellFormed(toks)
  {
    GroupsUpTo(toks, |toks|)
  }

  /** Where the single-register pass stands at token `k` when the reference
      result for the tokens before `k` is `r`: holding the last term with
      the others emitted, or failed with the same error. */
  function Resume(toks: seq<Token>, k: nat, r: Result<seq<Item>, EvalError>): Result<seq<Item>, EvalError>
    requires k <= |toks|
    requires r.Success? ==> EndsWithNum(r.value)
  {
    match r
    case Failure(e) => Failure(e)
    case Success(items) => FoldSlot(toks, k, Some(items[|items| - 1].value), items[..|items| - 1])
  }

  lemma FoldSlotSign(toks: seq<Token>, j: nat, a: real, out: seq<Item>)
    requires j + 1 < |toks| && IsOperatorToken(toks[j]) && IsNumber(toks[j + 1])
    requires toks[j].symbol == '+' || toks[j].symbol == '-'
    ensures FoldSlot(toks, j, Some(a), out)
         == FoldSlot(toks, j + 2, Some(NumberValue(toks[j + 1])), out + [Num(a), Raw(toks[j])])
  {
    var t := toks[j];
    OperatorIsNotNumber(t);
    assert TokenText(t) == [t.symbol];
    assert out + [Num(a)] + [Raw(t)] == out + [Num(a), Raw(t)];
    var r := FoldSlot(toks, j + 2, Some(NumberValue(toks[j + 1])), out + [Num(a), Raw(t)]);
    assert FoldSlot(toks, j + 1, None, out + [Num(a), Raw(t)]) == r;
    if r.Failure? {
      assert FoldSlot(toks, j, Some(a), out) == r;
    }
  }

  lemma SplitLast<T>(s: seq<T>)
    requires s != []
    ensures s == s[..|s| - 1] + [s[|s| - 1]]
  {
  }

  lemma DropLast<T>(s: seq<T>, x: T)
    ensures (s + [x])[..|s|] == s && (s + [x])[|s|] == x
  {
  }

  lemma AppendTwo<T>(s: seq<T>, x: T, y: T, z: T)
    ensures (s + [x]) + [y, z] == (s + [x, y]) + [z]
    ensures ((s + [x]) + [y, z])[..|s| + 2] == s + [x, y]
  {
  }

  /** The reference step on `+` or `-` appends the operator and the number. */
  lemma GroupStepSigns(prev: seq<Item>, op: Token, b: real)
    requires EndsWithNum(prev) && IsOperatorToken(op) && (op.symbol == '+' || op.symbol == '-')
    ensures GroupStep(prev, op, b) == Success(prev + [Raw(op), Num(b)])
  {
  }

  /** A `+` or `-` emits the held term and the operator, then holds the
      next number; the reference appends both. */
  lemma SlotStepSign(toks: seq<Token>, j: nat, prev: seq<Item>)
    requires j + 1 < |toks| && IsOperatorToken(toks[j]) && IsNumber(toks[j + 1])
    requires EndsWithNum(prev) && (toks[j].symbol == '+' || toks[j].symbol == '-')
    ensures Resume(toks, j, Success(prev)) == Resume(toks, j + 2, GroupStep(prev, toks[j], NumberValue(toks[j + 1])))
  {
    var t := toks[j];
    var a := prev[|prev| - 1].value;
    var b := NumberValue(toks[j + 1]);
    var pre := prev[..|prev| - 1];
    FoldSlotSign(toks, j, a, pre);
    GroupStepSigns(prev, t, b);
    SplitLast(prev);
    var items := prev + [Raw(t), Num(b)];
    AppendTwo(pre, Num(a), Raw(t), Num(b));
    assert Resume(toks, j, Success(prev)) == FoldSlot(toks, j, Some(a), pre);
    assert Resume(toks, j + 2, Success(items)) == FoldSlot(toks, j + 2, Some(b), pre + [Num(a), Raw(t)]);
  }

  /** The reference step on `*` or a non-zero `/` replaces the last term. */
  lemma GroupStepFolds(prev: seq<Item>, op: Token, b: real)
    requires EndsWithNum(prev) && IsOperatorToken(op)
    requires (op.symbol == '*' || op.symbol == '/') && !(op.symbol == '/' && b == 0.0)
    ensures GroupStep(prev, op, b) == Success(prev[..|prev| - 1] + [Num(Combine(op, prev[|prev| - 1].value, b))])
  {
  }

  /** A `*` or non-zero `/` folds the next number into the held term, as
      the reference folds it into its last term. */
  lemma SlotStepFold(toks: seq<Token>, j: nat, prev: seq<Item>)
    requires j + 1 < |toks| && IsOperatorToken(toks[j]) && IsNumber(toks[j + 1])
    requires EndsWithNum(prev) && (toks[j].symbol == '*' || toks[j].symbol == '/')
    requires !(toks[j].symbol == '/' && NumberValue(toks[j + 1]) == 0.0)
    ensures Resume(toks, j, Success(prev)) == Resume(toks, j + 2, GroupStep(prev, toks[j], NumberValue(toks[j + 1])))
  {
    var t := toks[j];
    var a := prev[|prev| - 1].value;
    var b := NumberValue(toks[j + 1]);
    var pre := prev[..|prev| - 1];
    OperatorIsNotNumber(t);
    assert TokenText(t) == [t.symbol];
    GroupStepFolds(prev, t, b);
    FoldSlotStep(toks, j, a, pre);
    var items := pre + [Num(Combine(t, a, b))];
    DropLast(pre, Num(Combine(t, a, b)));
    assert Resume(toks, j, Success(prev)) == FoldSlot(toks, j, Some(a), pre);
    assert Resume(toks, j + 2, Success(items)) == FoldSlot(toks, j + 2, Some(Combine(t, a, b)), pre);
  }

  /** A division by zero stops the single-register pass as it stops the
      reference. */
  lemma SlotStepZero(toks: seq<Token>, j: nat, prev: seq<Item>)
    requires j + 1 < |toks| && IsOperatorToken(toks[j]) && IsNumber(toks[j + 1])
    requires EndsWithNum(prev) && toks[j].symbol == '/' && NumberValue(toks[j + 1]) == 0.0
    ensures Resume(toks, j, Success(prev)) == Resume(toks, j + 2, GroupStep(prev, toks[j], NumberValue(toks[j + 1])))
  {
    var t := toks[j];
    OperatorIsNotNumber(t);
    assert TokenText(t) == [t.symbol];
  }

  /** The single-register pass at an operator does what the reference step
      does to the list of terms. */
  lemma SlotStep(toks: seq<Token>, j: nat, prev: seq<Item>)
    requires j + 1 < |toks| && IsOperatorToken(toks[j]) && IsNumber(toks[j + 1])
    requires EndsWithNum(prev)
    ensures Resume(toks, j, Success(prev)) == Resume(toks, j + 2, GroupStep(prev, toks[j], NumberValue(toks[j + 1])))
  {
    var c := toks[j].symbol;
    if c == '+' || c == '-' {
      SlotStepSign(toks, j, prev);
    } else if c == '/' && NumberValue(toks[j + 1]) == 0.0 {
      SlotStepZero(toks, j, prev);
    } else {
      SlotStepFold(toks, j, prev);
    }
  }

  /** The first token is a number: the pass holds it, and it is the
      reference's only term. */
  lemma SlotStart(toks: seq<Token>)
    requires 1 <= |toks| && WellFormedUpTo(toks, 1)
    ensures FoldSlot(toks, 0, None, []) == Resume(toks, 1, GroupsUpTo(toks, 1))
  {
    var r := FoldSlot(toks, 1, Some(NumberValue(toks[0])), []);
    if r.Failure? {
      assert FoldSlot(toks, 0, None, []) == r;
    }
  }

  /** Every odd-length prefix keeps the single-register pass in step with
      the reference: after the prefix of length `k` it holds the last term
      of the reference result and has emitted the others, or it has failed
      with the reference's error. */
  lemma {:induction false} SlotAfterPrefix(toks: seq<Token>, k: nat)
    requires k <= |toks| && WellFormedUpTo(toks, k)
    ensures FoldSlot(toks, 0, None, []) == Resume(toks, k, GroupsUpTo(toks, k))
    decreases k
  {
    if k == 1 {
      SlotStart(toks);
    } else {
      SlotAfterPrefix(toks, k - 2);
      var g := GroupsUpTo(toks, k - 2);
      if g.Success? {
        SlotStep(toks, k - 2, g.value);
      }
    }
  }

  /** On a well-formed token list pass 1 computes the reference result:
      `*` and `/` chain left to right within each additive term. */
  lemma Pass1LeftAssociative(toks: seq<Token>)
    requires WellFormed(toks)
    ensures Pass1(toks) == Groups(toks)
  {
    WellFormedIsShaped(toks);
    Pass1UsesOneSlot(toks);
    SlotAfterPrefix(toks, |toks|);
    match Groups(toks)
    case Failure(e) =>
    case Success(items) =>
      SplitLast(items);
  }
}

=== FILE: single_operation.dfy ===
/** The single-operation `calculate` endpoint: the trimmed expression must
    hold exactly one operator, strictly inside it; the text on each side,
    trimmed again, is parsed as a number and the one operation applied. */
module SingleOperation {
  import opened Wrappers
  import opened Text

  /** The error responses of `calculate`, in the order the code can reach
      them (the non-finite-result guard is not modelled). */
  datatype CalcError =
    | EmptyExpression
    | MultipleOperators
    | OperatorPosition
    | NoOperator
    | InvalidNumber
    | DivisionByZero
    | UnsupportedOperator

  /** The `"error"` text of each response. */
  function Message(e: CalcError): string {
    match e
    case EmptyExpression => "Expression cannot be empty"
    case MultipleOperators => "Only single operation supported"
    case OperatorPosition => "Invalid operator position"
    case NoOperator => "No valid operator found for single operation"
    case InvalidNumber => "Invalid number format"
    case DivisionByZero => "Division by zero"
    case UnsupportedOperator => "Invalid or unsupported operator"
  }

  /** The operator loop from index `i`, with the operator index found so
      far (`-1` in Java is `None` here). A second operator is reported
      before its own position is looked at. */
  function ScanOperator(e: string, i: nat, found: Option<nat>): (r: Result<Option<nat>, CalcError>)
    requires i <= |e|
    requires found.Some? ==> found.value < |e| && IsOperator(e[found.value])
    ensures r.Success? && r.value.Some? ==> r.value.value < |e| && IsOperator(e[r.value.value])
    ensures r.Failure? ==> r.error == MultipleOperators || r.error == OperatorPosition
    decreases |e| - i
  {
    if i == |e| then Success(found)
    else if IsOperator(e[i]) then
      if found.Some? then Failure(MultipleOperators)
      else if i == 0 || i == |e| - 1 then Failure(OperatorPosition)
      else ScanOperator(e, i + 1, Some(i))
    else ScanOperator(e, i + 1, found)
  }

  /** The `switch` on the operator character. */
  function Arith(op: char, left: real, right: real): Result<real, CalcError> {
    match op
    case '+' => Success(left + right)
    case '-' => Success(left - right)
    case '*' => Success(left * right)
    case '/' => if right == 0.0 then Failure(DivisionByZero) else Success(left / right)
    case _ => Failure(UnsupportedOperator)
  }

  /** The two operand texts: everything before and everything after the
      operator at `k`, each trimmed. */
  function LeftPart(e: string, k: nat): string
    requires k < |e|
  {
    Trim(e[..k])
  }

  function RightPart(e: string, k: nat): string
    requires k < |e|
  {
    Trim(e[k + 1..])
  }

  /** `calculate` on the request's expression (`None` for a missing one);
      `parse` stands for `Double.parseDouble`, `None` for a
      `NumberFormatException`. */
  function Calculate(expression: Option<string>, parse: string -> Option<real>): Result<real, CalcError> {
    if expression.None? || IsBlank(expression.value) then Failure(EmptyExpression)
    else
      var e := Trim(expression.value);
      var found :- ScanOperator(e, 0, None);
      if found.None? then Failure(NoOperator)
      else
        var k := found.value;
        match (parse(LeftPart(e, k)), parse(RightPart(e, k)))
        case (Some(l), Some(r)) => Arith(e[k], l, r)
        case _ => Failure(InvalidNumber)
  }

  /** Index of the first operator at or after `i`, or `|s|`. */
  function NextOperator(s: string, i: nat): (n: nat)
    requires i <= |s|
    ensures i <= n <= |s|
    ensures forall j :: i <= j < n ==> !IsOperator(s[j])
    ensures n < |s| ==> IsOperator(s[n])
    decreases |s| - i
  {
    if i == |s| || IsOperator(s[i]) then i else NextOperator(s, i + 1)
  }

  /** After an operator has been recorded, the loop fails exactly when
      another operator follows. */
  lemma {:induction false} ScanAfterFound(e: string, i: nat, k: nat)
    requires i <= |e| && k < |e| && IsOperator(e[k])
    ensures ScanOperator(e, i, Some(k))
         == if NextOperator(e, i) < |e| then Failure(MultipleOperators) else Success(Some(k))
    decreases |e| - i
  {
    if i < |e| && !IsOperator(e[i]) {
      ScanAfterFound(e, i + 1, k);
    }
  }

  /** What the loop decides, from the operators of the string: none found;
      the first one at either end; a second one after it; or exactly one,
      strictly inside. */
  lemma {:induction false} ScanOperatorSpec(e: string, i: nat)
    requires i <= |e|
    ensures var f := NextOperator(e, i);
            && (f == |e| ==> ScanOperator(e, i, None) == Success(None))
            && (f < |e| && (f == 0 || f == |e| - 1) ==> ScanOperator(e, i, None) == Failure(OperatorPosition))
            && (f < |e| && 0 < f < |e| - 1 && NextOperator(e, f + 1) < |e| ==>
                  ScanOperator(e, i, None) == Failure(MultipleOperators))
            && (f < |e| && 0 < f < |e| - 1 && NextOperator(e, f + 1) == |e| ==>
                  ScanOperator(e, i, None) == Success(Some(f)))
    decreases |e| - i
  {
    if i < |e| {
      if IsOperator(e[i]) {
        if 0 < i < |e| - 1 {
          ScanAfterFound(e, i + 1, i);
        }
      } else {
        ScanOperatorSpec(e, i + 1);
      }
    }
  }

  /** Only a missing or blank expression is reported as empty. */
  lemma CalculateEmpty(expression: Option<string>, parse: string -> Option<real>)
    ensures Calculate(expression, parse) == Failure(EmptyExpression)
            <==> expression.None? || IsBlank(expression.value)
  {
  }

  /** The operator checks of `calculate`, on a present expression that is
      not blank: they depend only on where the operators of the trimmed
      text lie, and they come before any parsing. */
  lemma CalculateOperatorChecks(s: string, parse: string -> Option<real>)
    requires !IsBlank(s)
    ensures var e := Trim(s);
            var f := NextOperator(e, 0);
            && (f == |e| ==> Calculate(Some(s), parse) == Failure(NoOperator))
            && (f < |e| && (f == 0 || f == |e| - 1) ==> Calculate(Some(s), parse) == Failure(OperatorPosition))
            && (f < |e| && 0 < f < |e| - 1 && NextOperator(e, f + 1) < |e| ==>
                  Calculate(Some(s), parse) == Failure(MultipleOperators))
  {
    ScanOperatorSpec(Trim(s), 0);
  }

  /** The two operands around the only operator hold no operator. */
  lemma OperandsHaveNoOperator(e: string, k: nat)
    requires k < |e| && NextOperator(e, 0) == k && NextOperator(e, k + 1) == |e|
    ensures forall j :: 0 <= j < |LeftPart(e, k)| ==> !IsOperator(LeftPart(e, k)[j])
    ensures forall j :: 0 <= j < |RightPart(e, k)| ==> !IsOperator(RightPart(e, k)[j])
  {
    NoOperatorInTrim(e, 0, k);
    NoOperatorInTrim(e, k + 1, |e|);
    assert e[..k] == e[0..k] && e[k + 1..] == e[k + 1..|e|];
  }

  /** With exactly one operator strictly inside the trimmed text, the two
      operands are the trimmed text on either side of it and hold no
      operator, an operand that does not parse gives "Invalid number
      format", and otherwise the operation named by the operator is
      applied; the `default` branch is never reached. */
  lemma CalculateSingleOperator(s: string, parse: string -> Option<real>)
    requires !IsBlank(s)
    requires var e := Trim(s);
             var f := NextOperator(e, 0);
             f < |e| && 0 < f < |e| - 1 && NextOperator(e, f + 1) == |e|
    ensures var e := Trim(s);
            var k := NextOperator(e, 0);
            var left := LeftPart(e, k);
            var right := RightPart(e, k);
            && (forall j :: 0 <= j < |left| ==> !IsOperator(left[j]))
            && (forall j :: 0 <= j < |right| ==> !IsOperator(right[j]))
            && (parse(left).None? || parse(right).None? ==> Calculate(Some(s), parse) == Failure(InvalidNumber))
            && (parse(left).Some? && parse(right).Some? ==>
                  Calculate(Some(s), parse) == Arith(e[k], parse(left).value, parse(right).value))
            && Calculate(Some(s), parse) != Failure(UnsupportedOperator)
  {
    var e := Trim(s);
    var k := NextOperator(e, 0);
    ScanOperatorSpec(e, 0);
    OperandsHaveNoOperator(e, k);
    var l := parse(LeftPart(e, k));
    var r := parse(RightPart(e, k));
    if l.Some? && r.Some? {
      ArithInverse(e[k], l.value, r.value);
    }
  }

  /** Trimming a stretch without operators leaves a string without them. */
  lemma NoOperatorInTrim(e: string, a: nat, b: nat)
    requires a <= b <= |e|
    requires forall j :: a <= j < b ==> !IsOperator(e[j])
    ensures forall j :: 0 <= j < |Trim(e[a..b])| ==> !IsOperator(Trim(e[a..b])[j])
  {
    var t := e[a..b];
    TrimSpec(t);
    var st := TrimStart(t);
    var stop := TrimStop(t, st, |t|);
    var tr := Trim(t);
    assert tr == t[st..stop];
    forall j | 0 <= j < |tr|
      ensures !IsOperator(tr[j])
    {
      assert tr[j] == t[st + j];
      assert t[st + j] == e[a + st + j];
    }
  }

  /** Each operation can be undone: the result, combined with the right
      operand by the opposite operation, gives back the left operand; a
      product with a zero right operand, which cannot be undone, is zero;
      and only a division by zero fails. */
  lemma ArithInverse(op: char, left: real, right: real)
    requires IsOperator(op)
    ensures Arith(op, left, right).Failure? <==> op == '/' && right == 0.0
    ensures Arith(op, left, right).Failure? ==> Arith(op, left, right).error == DivisionByZero
    ensures var r := Arith(op, left, right);
            && (op == '+' ==> r.value - right == left)
            && (op == '-' ==> r.value + right == left)
            && (op == '*' && right != 0.0 ==> r.value / right == left)
            && (op == '/' && right != 0.0 ==> r.value * right == left)
    ensures op == '*' && right == 0.0 ==> Arith(op, left, right) == Success(0.0)
  {
  }

  /** In `"5+3-"` the trailing `-` is the second operator, so the answer is
      "Only single operation supported", not "Invalid operator position". */
  lemma SecondOperatorReportedFirst(parse: string -> Option<real>)
    ensures Calculate(Some("5+3-"), parse) == Failure(MultipleOperators)
  {
    TrimKeeps("5+3-");
    ScanOperatorSpec("5+3-", 0);
    assert NextOperator("5+3-", 0) == 1;
    assert NextOperator("5+3-", 2) == 3;
  }

  /** A leading minus sign is an operator at index 0: `"-5+3"` is refused. */
  lemma NegativeFirstOperandRefused(parse: string -> Option<real>)
    ensures Calculate(Some("-5+3"), parse) == Failure(OperatorPosition)
  {
    TrimKeeps("-5+3");
    ScanOperatorSpec("-5+3", 0);
    assert NextOperator("-5+3", 0) == 0;
  }
}

=== FILE: syntax.dfy ===
/** The values the multi-operator evaluator passes between its stages:
    tokens, pass-1 entries and the errors it raises. The Java code keeps
    all of these as strings; the datatypes below give the strings a shape,
    while every comparison the code makes is still made on the text. */
module Syntax {
  import opened Text

  /** One entry of the tokenizer's list: a run of digits and dots, or a
      single operator character. */
  datatype Token = Lit(text: string) | Op(symbol: char)

  /** The string the Java list holds for a token. */
  function TokenText(t: Token): string {
    match t
    case Lit(s) => s
    case Op(c) => [c]
  }

  /** `isNumber(token)`: the text is non-empty and `Double.valueOf` accepts it. */
  predicate IsNumber(t: Token) {
    IsDecimalLiteral(TokenText(t))
  }

  /** `Double.valueOf(token)` for a token that `IsNumber` accepts. */
  function NumberValue(t: Token): real {
    LiteralValue(TokenText(t))
  }

  /** An entry of the pass-1 list: an operand that pass 1 computed, or a
      token it copied through unchanged. */
  datatype Item = Num(value: real) | Raw(token: Token)

  /** `isNumber` on a pass-1 entry; a computed operand is always a number. */
  predicate ItemIsNumber(it: Item) {
    it.Num? || IsNumber(it.token)
  }

  function ItemValue(it: Item): real {
    if it.Num? then it.value else NumberValue(it.token)
  }

  /** `token.equals(String.valueOf(c))`: the token's text is the
      one-character string `c`. */
  predicate Spells(t: Token, c: char) {
    |TokenText(t)| == 1 && TokenText(t)[0] == c
  }

  /** The entry is the string `"+"` or `"-"`. */
  predicate IsSign(it: Item) {
    it.Raw? && (Spells(it.token, '+') || Spells(it.token, '-'))
  }

  /** The entry is the string `"*"` or `"/"`. */
  predicate IsMulDiv(it: Item) {
    it.Raw? && (Spells(it.token, '*') || Spells(it.token, '/'))
  }

  /** The exceptions `evaluateSimpleExpression` throws (the floating-point
      guard "Invalid operation result" is not modelled). */
  datatype EvalError =
    | EmptyExpression
    | InvalidCharacter(c: char)
    | NoTokens
    | MalformedNear(operator: string)
    | DivisionByZero
    | LeadingOperator
    | DanglingOperator
    | UnexpectedToken(token: Token)

  /** The exception message of each error. */
  function Message(e: EvalError): string {
    match e
    case EmptyExpression => "Expression cannot be empty"
    case InvalidCharacter(c) => "Invalid character in expression " + [c]
    case NoTokens => "The result of the expression is no token"
    case MalformedNear(op) => "Invalid expression format near " + op
    case DivisionByZero => "Division by zero"
    case LeadingOperator => "Expression can't start with operator"
    case DanglingOperator => "Operator must be followed by a number"
    case UnexpectedToken(t) => "Unexpected token in second pass: " + TokenText(t)
  }

  predicate IsLiteralToken(t: Token) {
    t.Lit? && t.text != [] && IsLiteralText(t.text)
  }

  predicate IsOperatorToken(t: Token) {
    t.Op? && IsOperator(t.symbol)
  }

  /** What the tokenizer produces: non-empty digit/dot runs and operator
      characters, with no two runs next to each other. */
  predicate Shaped(toks: seq<Token>) {
    && (forall k :: 0 <= k < |toks| ==> IsLiteralToken(toks[k]) || IsOperatorToken(toks[k]))
    && (forall k :: 0 < k < |toks| ==> !(toks[k - 1].Lit? && toks[k].Lit?))
  }

  /** A literal token that `isNumber` accepts. */
  predicate IsNumberLiteral(t: Token) {
    t.Lit? && IsNumber(t)
  }

  /** The grammar the evaluator is meant for, on the first `k` tokens:
      number, operator, number, ..., number, every number a valid literal. */
  predicate WellFormedUpTo(toks: seq<Token>, k: nat)
    requires k <= |toks|
    decreases k
  {
    if k == 1 then IsNumberLiteral(toks[0])
    else
      && k >= 3
      && WellFormedUpTo(toks, k - 2)
      && IsOperatorToken(toks[k - 2])
      && IsNumberLiteral(toks[k - 1])
  }

  predicate WellFormed(toks: seq<Token>) {
    WellFormedUpTo(toks, |toks|)
  }

  /** The same grammar stated position by position: an odd number of
      tokens, numbers at even positions and operators at odd ones. */
  predicate Interleaved(toks: seq<Token>, k: nat)
    requires k <= |toks|
  {
    && k % 2 == 1
    && (forall i :: 0 <= i < k && i % 2 == 0 ==> IsNumberLiteral(toks[i]))
    && (forall i :: 0 <= i < k && i % 2 == 1 ==> IsOperatorToken(toks[i]))
  }

  /** A pass-1 list of the intended shape: number, sign, number, ..., number. */
  predicate Alternating(items: seq<Item>)
    decreases |items|
  {
    if |items| == 1 then items[0].Num?
    else
      && |items| >= 3
      && Alternating(items[..|items| - 2])
      && IsSign(items[|items| - 2])
      && items[|items| - 1].Num?
  }

  /** The token texts concatenated. */
  function Join(toks: seq<Token>): string {
    if toks == [] then [] else Join(toks[..|toks| - 1]) + TokenText(toks[|toks| - 1])
  }

  lemma {:induction false} WellFormedIsInterleaved(toks: seq<Token>, k: nat)
    requires k <= |toks|
    ensures WellFormedUpTo(toks, k) <==> Interleaved(toks, k)
    decreases k
  {
    if k >= 3 {
      WellFormedIsInterleaved(toks, k - 2);
      if WellFormedUpTo(toks, k) {
        InterleavedExtend(toks, k);
      } else if Interleaved(toks, k) {
        InterleavedShrink(toks, k);
      }
    }
  }

  lemma InterleavedExtend(toks: seq<Token>, k: nat)
    requires 3 <= k <= |toks| && Interleaved(toks, k - 2)
    requires IsOperatorToken(toks[k - 2]) && IsNumberLiteral(toks[k - 1])
    ensures Interleaved(toks, k)
  {
    forall i | 0 <= i < k && i % 2 == 0
      ensures IsNumberLiteral(toks[i])
    {
      if i >= k - 2 { assert i == k - 1; }
    }
    forall i | 0 <= i < k && i % 2 == 1
      ensures IsOperatorToken(toks[i])
    {
      if i >= k - 2 { assert i == k - 2; }
    }
  }

  lemma InterleavedShrink(toks: seq<Token>, k: nat)
    requires 3 <= k <= |toks| && Interleaved(toks, k)
    ensures Interleaved(toks, k - 2)
    ensures IsOperatorToken(toks[k - 2]) && IsNumberLiteral(toks[k - 1])
  {
    assert (k - 2) % 2 == 1 && (k - 1) % 2 == 0;
  }

  /** A token spelled by one operator character, an operator token among
      them, has no digit, so `isNumber` rejects it. */
  lemma OperatorIsNotNumber(t: Token)
    ensures Spells(t, '+') || Spells(t, '-') || Spells(t, '*') || Spells(t, '/') ==> !IsNumber(t)
  {
  }

  lemma WellFormedIsShaped(toks: seq<Token>)
    requires WellFormed(toks)
    ensures Shaped(toks)
  {
    WellFormedIsInterleaved(toks, |toks|);
    forall k | 0 < k < |toks|
      ensures !(toks[k - 1].Lit? && toks[k].Lit?)
    {
      if k % 2 == 0 {
        assert (k - 1) % 2 == 1;
      }
    }
  }
}

=== FILE: text.dfy ===
/** Character classes, Java's `String.trim` and the decimal literals the
    evaluator hands to `Double.valueOf`. Shared by both controllers and the
    display logic. */
module Text {

  /** `Character.isDigit`, restricted to ASCII. */
  predicate IsDigit(c: char) {
    '0' <= c <= '9'
  }

  /** The four operator characters of the calculator. */
  predicate IsOperator(c: char) {
    c == '+' || c == '-' || c == '*' || c == '/'
  }

  /** `Character.isWhitespace`, restricted to ASCII: tab through carriage
      return, the four information separators and the space. */
  predicate IsWhitespace(c: char) {
    ('\t' <= c <= '\r') || ('\U{1C}' <= c <= '\U{1F}') || c == ' '
  }

  /** Characters that `String.trim` removes: every code unit up to the space. */
  predicate IsTrimmable(c: char) {
    c <= ' '
  }

  /** `s.trim().isEmpty()`. */
  predicate IsBlank(s: string) {
    forall k :: 0 <= k < |s| ==> IsTrimmable(s[k])
  }

  /** Index of the first character kept by `trim` (the `st` loop). */
  function TrimStart(s: string): (st: nat)
    ensures st <= |s|
    ensures IsBlank(s[..st])
    ensures st < |s| ==> !IsTrimmable(s[st])
  {
    if s == [] || !IsTrimmable(s[0]) then 0
    else
      var st := 1 + TrimStart(s[1..]);
      assert s[..st] == [s[0]] + s[1..][..st - 1];
      st
  }

  /** One past the last character kept by `trim` (the `len` loop, which
      never moves below `st`). */
  function TrimStop(s: string, st: nat, len: nat): (stop: nat)
    requires st <= len <= |s|
    requires IsBlank(s[len..])
    ensures st <= stop <= len
    ensures IsBlank(s[stop..])
    ensures stop > st ==> !IsTrimmable(s[stop - 1])
    decreases len
  {
    if st < len && IsTrimmable(s[len - 1]) then
      assert s[len - 1..] == [s[len - 1]] + s[len..];
      TrimStop(s, st, len - 1)
    else len
  }

  /** Java's `String.trim`. */
  function Trim(s: string): string {
    var st := TrimStart(s);
    s[st..TrimStop(s, st, |s|)]
  }

  /** Trimming removes blank runs at both ends and nothing else, and the
      result is empty exactly when the whole string is blank. */
  lemma TrimSpec(s: string)
    ensures var st := TrimStart(s);
            var stop := TrimStop(s, st, |s|);
            && Trim(s) == s[st..stop]
            && IsBlank(s[..st]) && IsBlank(s[stop..])
            && (Trim(s) != [] ==> !IsTrimmable(Trim(s)[0]) && !IsTrimmable(Trim(s)[|Trim(s)| - 1]))
    ensures Trim(s) == [] <==> IsBlank(s)
  {
    var st := TrimStart(s);
    var stop := TrimStop(s, st, |s|);
    if Trim(s) == [] {
      assert s[..st] == s;
    } else {
      assert !IsTrimmable(s[st]);
    }
  }

  /** Number of `.` characters. */
  function DotCount(s: string): nat {
    if s == [] then 0 else (if s[0] == '.' then 1 else 0) + DotCount(s[1..])
  }

  /** The strings the tokenizer builds: digits and dots only. */
  predicate IsLiteralText(s: string) {
    forall k :: 0 <= k < |s| ==> IsDigit(s[k]) || s[k] == '.'
  }

  /** `Double.valueOf` accepts a string of digits and dots exactly when it has
      at least one digit and at most one dot. */
  predicate IsDecimalLiteral(s: string) {
    && IsLiteralText(s)
    && (exists k :: 0 <= k < |s| && IsDigit(s[k]))
    && DotCount(s) <= 1
  }

  function Pow10(n: nat): (p: nat)
    ensures p >= 1
  {
    if n == 0 then 1 else 10 * Pow10(n - 1)
  }

  /** The digits of `s` read as one natural number, ignoring the dot. */
  function Mantissa(s: string): nat {
    if s == [] then 0
    else
      var c := s[|s| - 1];
      if IsDigit(c) then 10 * Mantissa(s[..|s| - 1]) + (c as int - '0' as int)
      else Mantissa(s[..|s| - 1])
  }

  /** Number of characters after the first dot (the fraction digits). */
  function FractionLength(s: string): nat {
    if s == [] then 0
    else if s[0] == '.' then |s| - 1
    else FractionLength(s[1..])
  }

  /** The exact value of a digit/dot literal: `"12.5"` is 125 / 10. */
  function LiteralValue(s: string): real {
    (Mantissa(s) as real) / (Pow10(FractionLength(s)) as real)
  }

  lemma {:induction false} MantissaZero(s: string)
    requires IsLiteralText(s)
    ensures Mantissa(s) == 0 <==> forall k :: 0 <= k < |s| ==> s[k] != '.' ==> s[k] == '0'
  {
    if s != [] {
      var init := s[..|s| - 1];
      assert IsLiteralText(init) by {
        forall k | 0 <= k < |init| ensures IsDigit(init[k]) || init[k] == '.' {
          assert init[k] == s[k];
        }
      }
      MantissaZero(init);
      if forall k :: 0 <= k < |s| ==> s[k] != '.' ==> s[k] == '0' {
        assert forall k :: 0 <= k < |init| ==> init[k] != '.' ==> init[k] == '0' by {
          forall k | 0 <= k < |init| ensures init[k] != '.' ==> init[k] == '0' {
            assert init[k] == s[k];
          }
        }
      } else {
        var k :| 0 <= k < |s| && s[k] != '.' && s[k] != '0';
        if k < |s| - 1 {
          assert init[k] == s[k];
        }
      }
    }
  }

  /** A literal's value is zero exactly when every digit in it is `0`, so
      `"0.00"` and `".0"` are zero divisors. */
  lemma LiteralZero(s: string)
    requires IsLiteralText(s)
    ensures LiteralValue(s) == 0.0 <==> forall k :: 0 <= k < |s| ==> s[k] != '.' ==> s[k] == '0'
  {
    MantissaZero(s);
  }

  /** A string that starts and ends with a kept character is its own trim. */
  lemma TrimKeeps(s: string)
    requires s != [] && !IsTrimmable(s[0]) && !IsTrimmable(s[|s| - 1])
    ensures Trim(s) == s
  {
    assert TrimStart(s) == 0;
    assert TrimStop(s, 0, |s|) == |s|;
  }
}

=== FILE: tokenizer.dfy ===
/** The tokenizer of `evaluateSimpleExpression`: digits and dots collect into
    a literal, an operator closes the literal and becomes a token of its own,
    whitespace is skipped WITHOUT closing the literal, and anything else is
    rejected. */
module Tokenizer {
  import opened Wrappers
  import opened Text
  import opened Syntax

  /** Characters the scan does not reject. */
  predicate IsAccepted(c: char) {
    IsDigit(c) || c == '.' || IsOperator(c) || IsWhitespace(c)
  }

  /** The token list after the pending literal (if any) is added. */
  function Flush(toks: seq<Token>, current: string): seq<Token> {
    if current == [] then toks else toks + [Lit(current)]
  }

  /** The scan loop from index `i` of the trimmed input `e`; `current` is
      the pending literal and `toks` the tokens emitted so far. */
  function Scan(e: string, i: nat, current: string, toks: seq<Token>): Result<seq<Token>, EvalError>
    requires i <= |e|
    decreases |e| - i
  {
    if i == |e| then Success(Flush(toks, current))
    else
      var c := e[i];
      if IsDigit(c) || c == '.' then Scan(e, i + 1, current + [c], toks)
      else if IsOperator(c) then Scan(e, i + 1, [], Flush(toks, current) + [Op(c)])
      else if IsWhitespace(c) then Scan(e, i + 1, current, toks)
      else Failure(InvalidCharacter(c))
  }

  /** Trimming, the empty check, the scan and the "no token" check. */
  function Tokenize(expression: string): Result<seq<Token>, EvalError> {
    var e := Trim(expression);
    if e == [] then Failure(EmptyExpression)
    else
      var toks :- Scan(e, 0, [], []);
      if toks == [] then Failure(NoTokens) else Success(toks)
  }

  /** The characters of `s` from index `i` on, whitespace removed. */
  function SqueezeFrom(s: string, i: nat): string
    requires i <= |s|
    decreases |s| - i
  {
    if i == |s| then []
    else (if IsWhitespace(s[i]) then [] else [s[i]]) + SqueezeFrom(s, i + 1)
  }

  /** The string with its whitespace removed. */
  function Squeeze(s: string): string {
    SqueezeFrom(s, 0)
  }

  /** Index of the first character at or after `i` that the scan rejects,
      or `|s|` if there is none. */
  function FirstRejected(s: string, i: nat): (n: nat)
    requires i <= |s|
    ensures i <= n <= |s|
    ensures forall k :: i <= k < n ==> IsAccepted(s[k])
    ensures n < |s| ==> !IsAccepted(s[n])
    decreases |s| - i
  {
    if i == |s| || !IsAccepted(s[i]) then i else FirstRejected(s, i + 1)
  }

  lemma JoinAppend(toks: seq<Token>, t: Token)
    ensures Join(toks + [t]) == Join(toks) + TokenText(t)
  {
    assert (toks + [t])[..|toks|] == toks;
  }

  lemma JoinFlush(toks: seq<Token>, current: string)
    ensures Join(Flush(toks, current)) == Join(toks) + current
  {
    if current != [] {
      JoinAppend(toks, Lit(current));
    }
  }

  /** The scan fails exactly when some character is rejected, and then it
      reports the first such character. */
  lemma {:induction false} ScanRejects(e: string, i: nat, current: string, toks: seq<Token>)
    requires i <= |e|
    ensures Scan(e, i, current, toks).Failure? <==> FirstRejected(e, i) < |e|
    ensures Scan(e, i, current, toks).Failure? ==>
              Scan(e, i, current, toks).error == InvalidCharacter(e[FirstRejected(e, i)])
    decreases |e| - i
  {
    if i < |e| {
      var c := e[i];
      if IsDigit(c) || c == '.' {
        ScanRejects(e, i + 1, current + [c], toks);
      } else if IsOperator(c) {
        ScanRejects(e, i + 1, [], Flush(toks, current) + [Op(c)]);
      } else if IsWhitespace(c) {
        ScanRejects(e, i + 1, current, toks);
      }
    }
  }

  lemma SqueezeKeeps(s: string, i: nat)
    requires i < |s| && !IsWhitespace(s[i])
    ensures SqueezeFrom(s, i) == [s[i]] + SqueezeFrom(s, i + 1)
  {
  }

  lemma Regroup(a: string, b: string, c: char, d: string)
    ensures a + (b + [c]) + d == a + b + ([c] + d)
  {
  }

  lemma RegroupEmpty(a: string, b: string, c: char, d: string)
    ensures (a + b + [c]) + [] + d == a + b + ([c] + d)
  {
  }

  /** Whatever the scan emits spells out, in order, the text already emitted,
      the pending literal and the rest of the input minus its whitespace. */
  lemma {:induction false} ScanJoin(e: string, i: nat, current: string, toks: seq<Token>)
    requires i <= |e| && Scan(e, i, current, toks).Success?
    ensures Join(Scan(e, i, current, toks).value) == Join(toks) + current + SqueezeFrom(e, i)
    decreases |e| - i
  {
    if i == |e| {
      JoinFlush(toks, current);
    } else {
      var c := e[i];
      var out := Scan(e, i, current, toks).value;
      if IsDigit(c) || c == '.' {
        assert out == Scan(e, i + 1, current + [c], toks).value;
        ScanJoin(e, i + 1, current + [c], toks);
        SqueezeKeeps(e, i);
        Regroup(Join(toks), current, c, SqueezeFrom(e, i + 1));
      } else if IsOperator(c) {
        var toks' := Flush(toks, current) + [Op(c)];
        assert out == Scan(e, i + 1, [], toks').value;
        ScanJoin(e, i + 1, [], toks');
        JoinFlushOperator(toks, current, c);
        SqueezeKeeps(e, i);
        RegroupEmpty(Join(toks), current, c, SqueezeFrom(e, i + 1));
      } else {
        assert out == Scan(e, i + 1, current, toks).value;
        ScanJoin(e, i + 1, current, toks);
        assert SqueezeFrom(e, i) == SqueezeFrom(e, i + 1);
      }
    }
  }

  lemma JoinFlushOperator(toks: seq<Token>, current: string, c: char)
    ensures Join(Flush(toks, current) + [Op(c)]) == Join(toks) + current + [c]
  {
    JoinAppend(Flush(toks, current), Op(c));
    JoinFlush(toks, current);
  }

  lemma FlushShaped(toks: seq<Token>, current: string)
    requires Shaped(toks) && IsLiteralText(current)
    requires toks == [] || toks[|toks| - 1].Op?
    ensures Shaped(Flush(toks, current))
  {
  }

  /** The scan keeps the token list shaped: a literal is only ever emitted
      at the start or right after an operator. */
  lemma {:induction false} ScanShaped(e: string, i: nat, current: string, toks: seq<Token>)
    requires i <= |e| && Shaped(toks) && IsLiteralText(current)
    requires toks == [] || toks[|toks| - 1].Op?
    requires Scan(e, i, current, toks).Success?
    ensures Shaped(Scan(e, i, current, toks).value)
    decreases |e| - i
  {
    if i == |e| {
      FlushShaped(toks, current);
    } else {
      var c := e[i];
      if IsDigit(c) || c == '.' {
        ScanShaped(e, i + 1, current + [c], toks);
      } else if IsOperator(c) {
        FlushShaped(toks, current);
        ScanShaped(e, i + 1, [], Flush(toks, current) + [Op(c)]);
      } else {
        ScanShaped(e, i + 1, current, toks);
      }
    }
  }

  /** Blank input, and only blank input, is rejected as empty. */
  lemma TokenizeEmpty(expression: string)
    ensures Tokenize(expression) == Failure(EmptyExpression) <==> IsBlank(expression)
  {
    TrimSpec(expression);
    var e := Trim(expression);
    if e != [] {
      ScanRejects(e, 0, [], []);
    }
  }

  /** Non-blank input fails exactly when its trimmed text holds a character
      that is not a digit, `.`, operator or whitespace, and the error names
      the first such character. The "no token" error is therefore never
      raised. */
  lemma TokenizeRejects(expression: string)
    requires !IsBlank(expression)
    ensures var e := Trim(expression);
            && (Tokenize(expression).Failure? <==> FirstRejected(e, 0) < |e|)
            && (Tokenize(expression).Failure? ==>
                  Tokenize(expression).error == InvalidCharacter(e[FirstRejected(e, 0)]))
  {
    TrimSpec(expression);
    var e := Trim(expression);
    ScanRejects(e, 0, [], []);
    if Scan(e, 0, [], []).Success? {
      ScanJoin(e, 0, [], []);
      assert !IsWhitespace(e[0]);
      assert SqueezeFrom(e, 0) != [];
    }
  }

  /** On success the tokens, concatenated, are the trimmed input with its
      whitespace removed, and they are shaped: `"2 3"` gives the single
      literal `"23"`. */
  lemma TokenizeSuccess(expression: string)
    requires Tokenize(expression).Success?
    ensures var toks := Tokenize(expression).value;
            && Join(toks) == Squeeze(Trim(expression))
            && Shaped(toks)
            && toks != []
  {
    var e := Trim(expression);
    ScanJoin(e, 0, [], []);
    ScanShaped(e, 0, [], []);
  }

  lemma NoTokensUnreachable(expression: string)
    ensures Tokenize(expression) != Failure(NoTokens)
  {
    if !IsBlank(expression) {
      TokenizeRejects(expression);
    } else {
      TokenizeEmpty(expression);
    }
  }
}

=== FILE: wrappers.dfy ===
/** Failure-compatible result types shared by every module of the calculator model. */
module Wrappers {

  /** An optional value; Java's `null` and "not found" both become `None`. */
  datatype Option<+T> = None | Some(value: T)

  /** Either a computed value or the error the source reports instead of it. */
  datatype Result<+T, +E> = Success(value: T) | Failure(error: E) {

    predicate IsFailure() {
      Failure?
    }

    function PropagateFailure<U>(): Result<U, E>
      requires Failure?
    {
      Failure(error)
    }

    function Extract(): T
      requires Success?
    {
      value
    }
  }
}
